=== FILE: README.md ===
# Restaurant bookings and orders — a Dafny model

This project models the business logic of a Django restaurant backend. The
backend keeps tables, bookings, menu items, orders and order lines. Customers
book a table for one of six evening slots and place orders. Staff manage the
catalogue and move orders through their statuses.

The model is an in-memory database: `Database.Store` is a class whose fields
are the five tables, one sequence each. A row's id is its position, and
nothing is deleted. `Store.Valid()` states the constraints the store keeps. Some are
database constraints, some are request validation, and some are kept by how
order lines are saved:

- one booking per (table, date, time slot), whatever its status;
- guests in 1..20 and within the table's capacity;
- table capacities in {2, 4, 6, 8}, with unique table numbers;
- one line per (order, menu item);
- a line's price equals unit price times quantity;
- every order's total equals the sum of its lines' prices.

Every state-changing operation requires `Valid()` and keeps it.

Money is in integer cents. A point in time is a calendar day plus
microseconds into that day. The current time ("now") and the current day
("today") are parameters.

Modules:

- `Wrappers`: the `Option`, `Result` and `Outcome` types.
- `Models`: the records, the six booking slots, booking status and the
  auto-complete-on-save rule, the order statuses, repricing a line, the
  order total, and the database invariants.
- `Serializers`: request validation for bookings, orders and registration,
  and the lines that creating an order inserts.
- `Views`: per-user visibility, the available-slots query and the dashboard
  counts.
- `Database`: the store and the operations that write it.

Facts about the code that the model keeps, even where a reader might expect
otherwise:

- The owner-or-staff guard of cancel (views.py.py:80) can never refuse. The
  booking is looked up among the caller's visible bookings first
  (views.py.py:62-65, 79), so another user's booking is "not found".
- Menu prices are not checked to be positive (py1.py:20 has no validator),
  and a line's quantity may be 0 (py1.py:142).
- A cancelled or completed booking still blocks its (table, date, slot) key.
  The uniqueness constraint (py1.py:92) covers every status, while the
  booking validator only looks at pending and confirmed bookings
  (serializers.py.py:79).
- Within the booking validator, the conflict check on creation runs before the
  capacity check, so a request failing both reports the conflict
  (serializers.py.py:70-91). The framework's own unique-together check would
  come earlier still; see the line on it under "Left out".
- An order may be created with an empty list of entries. It then has no lines
  and a total of zero (serializers.py.py:126-133).
- Creating an order is not one transaction. When an entry repeats a menu item,
  the insert of its line fails. The order and the lines saved before it stay
  (serializers.py.py:128-131, py1.py:147).

## Model

| member | source | states |
|---|---|---|
| Models.SlotIndex | py1.py:59-66 | every slot has a position among the six slots, in declared order |
| Models.ParseSlot | py1.py:59-66 | a submitted slot value is accepted exactly when it is one of the six labels, and it maps to the slot with that label |
| Models.StartHour | py1.py:106 | the hour parsed from a slot's label is 17 plus the slot's position (17:00 … 22:00) |
| Models.SlotStart | py1.py:106 | the start of a slot on a date is a valid moment on that same date |
| Models.PastDueByCalendar | py1.py:102-107 | a booking is past due iff its date is before today, or it is today and its slot's start hour is strictly before the current time |
| Models.PastDueStays | py1.py:102-107 | once a booking is past due, it stays past due at every later time |
| Models.SavedStatus | py1.py:109-113 | saving never changes a cancelled or completed status; an active status becomes completed iff the booking is past due; completed is the only new status a save can produce |
| Models.Saved | py1.py:109-113 | a save changes only the status; after saving a past-due booking it is not pending or confirmed; a booking not past due, or already final, is unchanged |
| Models.SavedIdempotent | py1.py:109-113 | saving twice at the same time is the same as saving once |
| Models.ParseOrderStatus | py1.py:116-123 | a status value is accepted exactly when it is one of the six order status keys, and it maps to the status with that key |
| Models.Repriced | py1.py:152-154 | saving a line sets its unit price to the menu item's current price, whatever it held, and its price to unit price times quantity; order, menu item and quantity are kept |
| Models.TotalAppend | py1.py:158 | adding a line adds its price to its own order's total and leaves other orders' totals unchanged |
| Models.TotalUpdate | py1.py:158 | replacing a line changes its order's total by the difference between the new and old prices |
| Models.TotalOfUnreferenced | py1.py:158 | an order with no lines has total zero |
| Models.TotalsAfterLineChange | py1.py:155-159 | replacing a line leaves unchanged the total of every order other than the line's old and new orders |
| Models.ReplaceLineKeepsLedger | py1.py:152-159 | writing a repriced line over an existing row, when no other line pairs its order with its menu item, keeps every ledger constraint once the line's old and new orders are re-totalled |
| Models.AppendLineKeepsLedger | py1.py:152-159 | inserting a repriced line, when no line pairs its order with its menu item, keeps every ledger constraint once its order is re-totalled |
| Serializers.ParseBookingRequest | py1.py:76-84 | a booking request passes field validation iff its table exists, its slot is one of the six, its guest count lies in 1..20, and the contact fields pass their checks; the accepted fields equal the submitted ones; a failure names the first field that fails, in the order table, time slot, guests, then the contact field `ContactError` names |
| Serializers.ContactError | py1.py:82-84 | a contact is refused iff its name is blank or longer than 100 characters, its email is not an address or longer than 254 characters, or its phone is blank or longer than 15 characters; blank means whitespace only, as Python's strip counts it; the refusal names the first failing field, checked in the order name, email, phone |
| Serializers.BlankPhoneRefused | py1.py:84 | a blank or whitespace-only phone number is refused, whatever the other fields hold |
| Serializers.ValidateBooking | serializers.py.py:68-93 | conflict iff creating and the table already has a pending or confirmed booking for that date and slot; otherwise over-capacity iff guests exceed the table's capacity; otherwise pass; the conflict is reported first |
| Serializers.ValidateIgnoresFinalBookings | serializers.py.py:75-80 | cancelled and completed bookings never change the validator's verdict |
| Serializers.ValidateRegistration | serializers.py.py:20-23 | registration passes iff the password equals its confirmation; otherwise it fails with a mismatch |
| Serializers.ValidateOrderRequest | serializers.py.py:119-124 | an order request passes iff its booking (when given) exists and each entry names an existing menu item with a non-negative quantity |
| Serializers.LineFor | serializers.py.py:130-131 | the line stored for an entry belongs to the new order, keeps the entry's menu item and quantity, and takes its prices from the menu, not from the client |
| Serializers.TotalOfNewOrder | serializers.py.py:126-133 | after a new order's lines are inserted, its total is the sum of menu price times quantity over its entries |
| Serializers.FirstRepeatFrom | py1.py:147 | the insertion stops at the first entry whose menu item an earlier entry already named, and no entry before it does |
| Serializers.FirstRepeat | py1.py:147 | the stopping point lies within the entries |
| Serializers.FirstRepeatIsEndIffDistinct | serializers.py.py:130-131 | every entry is inserted iff no two entries name the same menu item; the inserted prefix never repeats a menu item |
| Views.VisibleIds | views.py.py:62-65 | the visible ids are in range and increasing, each one is visible to the user, and every visible record is listed |
| Views.VisibilityByRole | views.py.py:159-162 | staff see every record; any other user sees exactly the records they own |
| Views.StaffSeesAll | views.py.py:62-64 | staff see all ids, in order |
| Views.AvailabilityListsReported | views.py.py:130-145 | every listed slot is one of the queried slots, and it shows its display time and a positive count: suitable tables minus pending or confirmed bookings in that slot across all tables |
| Views.AvailabilityListsEveryReported | views.py.py:138-140 | every queried slot with a positive count is listed |
| Views.AvailabilityKeepsOrder | views.py.py:129-145 | the listed slots keep the order of the queried slots |
| Views.AvailabilityExtend | views.py.py:130-145 | the list for one more slot is the previous list plus that slot's entry when its count is positive |
| Views.AvailableSlots | views.py.py:98-108 | the query is rejected exactly when the date is missing |
| Views.AvailableSlotsInOrder | views.py.py:119-145 | with a date, the query succeeds and lists slots in their declared order |
| Views.AllSlotsIncreasing | py1.py:59-66 | the six slots are listed in increasing order |
| Views.QueryAvailableSlots | views.py.py:98-151 | the loop over the six slots returns the same result as the query's definition |
| Views.ReportedHidesFreeTable | views.py.py:132-138 | as written: one free 8-seat table, a booked 2-seat table and a 6-guest query give a count of 0, so 19:00 is not listed |
| Views.CorrectedCountsFreeTables | views.py.py:132-138 | corrected: suitable tables minus bookings on suitable tables equals the number of suitable tables with no active booking |
| Views.ActiveOnSuitableAtMostActive | views.py.py:132-136 | bookings on suitable tables are never more than all active bookings in the slot |
| Views.ReportedNeverOverstates | views.py.py:138 | the reported count never exceeds the number of truly free suitable tables |
| Views.Count | views.py.py:257-264 | a filtered count never exceeds the number of rows |
| Views.CreatedOn | views.py.py:263 | the day's orders are orders created that day, and there are no more of them than orders |
| Views.CreatedOtherDays | views.py.py:268-270 | the orders of other days, which are never more than the orders |
| Views.DashboardStats | views.py.py:251-270 | only staff get the dashboard, anyone else is refused as forbidden; booking and order totals are the row counts, and the day's and pending counts never exceed them |
| Views.CountAppend | views.py.py:257-264 | a new row adds one to a filtered count exactly when it matches the filter |
| Views.CountUpdate | views.py.py:257-264 | rewriting one row moves a filtered count by whether the old and the new row match the filter |
| Views.DashboardAfterNewBooking | views.py.py:257-259 | a new booking adds one to the booking total, one to today's bookings iff it is dated today, one to the pending bookings iff it is pending, and changes no order figure |
| Views.DashboardAfterBookingStatus | views.py.py:257-259 | changing a booking's status lowers the pending bookings by one iff it was pending and is no longer, raises them by one in the reverse case, and changes no other figure |
| Views.DashboardAfterOrderStatus | views.py.py:262-267 | changing an order's status lowers the pending orders by one iff it was pending and is no longer, raises them by one in the reverse case, and changes neither the order total nor total revenue |
| Views.TodayOrdersCounted | views.py.py:263 | the day's order count is the number of orders created that day |
| Views.RevenueSplitsByDay | views.py.py:267-270 | total revenue is the day's revenue plus the revenue of other days' orders |
| Views.RevenueIgnoresStatus | views.py.py:267 | changing an order's status never changes total revenue, so revenue counts orders of every status |
| Views.RevenueAppend | views.py.py:267 | adding an order adds its total to revenue |
| Views.TotalsUpToAppend | views.py.py:267 | adding a line adds its price to the sum of the totals of the orders it belongs to |
| Views.TotalsUpToAllLines | py1.py:158 | when every line belongs to one of the first n orders, those orders' totals sum to the sum of all line prices |
| Views.TotalsUpToOfNothing | py1.py:158 | with no lines, every order's total sums to zero |
| Views.RevenueIsTotalsUpTo | views.py.py:267 | when each order's total equals the sum of its lines, revenue is the sum of the orders' line totals |
| Views.RevenueIsSumOfLines | views.py.py:267 | in a valid database, total revenue equals the sum of all line prices |
| Views.BookedSuitableUpToAppend | views.py.py:132-138 | adding a booking adds its count to each suitable table it is on |
| Views.NothingBookedUpTo | views.py.py:132-138 | with no bookings, no suitable table is booked |
| Views.ActiveOnSuitableByTable | views.py.py:132-138 | counting active bookings on suitable tables booking by booking equals counting them table by table |
| Views.BookingsOfTableIsIndicator | py1.py:92 | under the uniqueness constraint, a table has at most one booking per date and slot |
| Views.CorrectedUpTo | views.py.py:132-138 | over the first n tables, suitable minus booked-suitable equals the number of free suitable tables |
| Database.NewBooking | views.py.py:74-75 | a created booking belongs to the caller, keeps the submitted fields, and is pending, or completed if its slot has already started |
| Database.UpdatedBooking | serializers.py.py:66 | an updated booking keeps its owner, takes the submitted fields, and its status is only re-derived by the save |
| Database.FinalBookingStillHoldsKey | py1.py:92 | a cancelled or completed booking does not make a creation request conflict, yet its key is still taken |
| Database.FoundIffListed | views.py.py:62-65 | a booking id is found iff it is in the caller's booking list: staff find every booking, others only their own |
| Database.SaveLineAsWritten | py1.py:152-159 | as written: a re-saved line is repriced and written, and only the order it now belongs to is re-totalled; every other order is unchanged |
| Database.MovedLineLeavesStaleTotal | py1.py:158-159 | as written: moving the only line of an order worth 500 to another order leaves the first order's total at 500 while its lines sum to 0 |
| Database.Store.AddTable | py1.py:46-48 | staff add a table iff its number is new, its capacity is 2, 4, 6 or 8 and its location has at most 50 characters; others are refused; nothing else changes |
| Database.Store.AddMenuItem | py1.py:19-24 | staff add a menu item iff its name is not blank and has at most 100 characters; non-staff are refused; the item is appended as given, and nothing else changes |
| Database.Store.SetMenuPrice | views.py.py:38-41 | only staff change an existing item's price; stored lines and order totals are untouched |
| Database.Store.CreateBooking | serializers.py.py:68-93 | the request is rejected with the field error, then the conflict, then the over-capacity error; otherwise the insert fails iff the key is taken by a booking of any status; otherwise the new booking is appended |
| Database.Store.UpdateBooking | serializers.py.py:70 | an update never reports a conflict; a booking not among the caller's visible bookings is not found; then the field error, then over-capacity, then a key taken by another booking is reported; it succeeds iff none of these holds, and then only that booking changes |
| Database.Store.CancelBooking | views.py.py:77-96 | a booking not among the caller's visible bookings is not found; an already cancelled or completed one is refused with its status and nothing changes; otherwise it becomes cancelled and stays cancelled after the save |
| Database.Store.SaveItem | py1.py:152-159 | a line is refused iff its order already has another line for that menu item; otherwise it is repriced from the menu and stored; its order's total becomes the sum of its lines; when a line moves, the order it left is re-totalled too (corrected, see Findings); only totals change, and only those orders' |
| Database.Store.CreateOrder | serializers.py.py:126-133 | an invalid request changes nothing; otherwise a pending order owned by the caller is added, and the lines of the entries before the first repeated menu item are stored; the total is the sum of their menu prices times quantities; it succeeds iff no menu item repeats |
| Database.Store.UpdateOrderStatus | views.py.py:172-193 | non-staff callers are refused, then a missing order is not found, then an unknown status is rejected; otherwise only the status changes, to the requested one, from any prior status |
| Database.LineTakenIffRepeat | py1.py:147 | while an order's lines are inserted, an entry's line collides exactly when an earlier entry named the same menu item |

## Left out

- HTTP plumbing: routing, filtering, search, ordering and response shaping. Error values stand in for the responses.
- Token login, logout and registration. Password-strength validation is a library call, and only the password-confirmation check is modelled.
- Categories, images, created and updated timestamps, and the top-five popular-items aggregate.
- Order creation days are modelled as a day value, and "today" is a parameter.
- The admin configuration.
- The sample-data seeding command.
- Date and number parsing in the available-slots query. The date arrives already parsed or missing, and guests arrive as an integer or as missing (default 2). A date or guest count that fails to parse is not modelled.
- Time zones: "now" is one moment on the same calendar as booking dates. The model assumes naive datetimes, with time-zone support turned off. With it on, `timezone.now()` is zone-aware, and comparing it with the naive slot start at py1.py:107 raises an error instead of answering. The settings file is not part of this model.
- Serializers.ParseBookingRequest: reports the first failing field only, where the framework reports every invalid field at once. The email check keeps only the address's shape: one `@`, a non-empty local part, and a dotted domain or `localhost`. It does not keep the full email validator's character rules or its bracketed IP-address domains. Surrounding whitespace is not trimmed before the length checks.
- Conversion of revenue to floating point. Money stays in integer cents.
- Decimal field digit limits on prices and totals.
- Concurrency: each operation is atomic, including the race between the conflict check and the insert.
- The framework's own unique-together validator, which would reject a taken (table, date, slot) key before the booking validator runs. Here that key is refused by the database constraint instead (`IntegrityError`).
- Partial updates of bookings and editing or deleting tables, menu items, bookings and orders, apart from the operations listed above.
- Database.Store.AddTable: reports the first failing field only, where the framework reports all invalid fields at once. Surrounding whitespace is not trimmed before the location's length check.
- Database.Store.AddMenuItem: the required category, the description and the image are not modelled, because categories are left out. Only the first failing field is reported, and the name is not trimmed before its length check.
- Views.DashboardStats: its own contract states the staff-only gate and bounds. The lemmas listed under "Model" state how each count and revenue figure responds to a new booking, a booking status change, and an order status change, what today's orders are, and how revenue splits by day and sums the lines.

## Findings

| source | as written | input that shows it | evidently intended | confidence | as-written member | corrected member |
|---|---|---|---|---|---|---|
| views.py.py:132-138 | available tables = suitable tables minus pending or confirmed bookings in the slot on every table, including tables too small for the party | tables of 2 and 8 seats, a pending booking of the 2-seat table at 19:00, query for 6 guests: 1 − 1 = 0, so 19:00 is hidden although the 8-seat table is free | subtract only bookings on suitable tables, which gives the number of suitable tables with no active booking | medium, not executed | Views.ReportedHidesFreeTable | Views.CorrectedCountsFreeTables |
| py1.py:152-159 | re-saving a line with a different order re-totals only the new order; the order it left keeps a total that still counts the line | order 0 worth 500 with one 500-cent line, order 1 worth 0; the line is re-saved with order 1: order 0 keeps total 500 while its lines sum to 0 | re-total both the order the line left and the order it joined, so every total stays the sum of its lines | medium, not executed | Database.MovedLineLeavesStaleTotal | Database.Store.SaveItem |

=== FILE: database.dfy ===
/**
 * The restaurant's database and the operations that write it: creating,
 * updating and cancelling bookings, creating orders and saving their lines,
 * updating an order's status, and the staff-only catalogue writes the
 * booking and order operations depend on.
 *
 * Each table of the database is a sequence whose positions are the rows'
 * ids. Nothing is ever deleted, so an id stays valid once issued.
 */
module Database {
  import opened Wrappers
  import opened Models
  import opened Serializers
  import opened Views

  /** The booking a successful creation stores: owned by the caller, pending, then saved at `now`. */
  function NewBooking(u: User, f: BookingFields, now: Moment): (b: Booking)
    ensures b.user == u.id
    ensures KeyOf(b) == BookingKey(f.table, f.date, f.slot) && b.guests == f.guests && b.contact == f.contact
    ensures b.status == if IsPastDue(f.date, f.slot, now) then BookingStatus.Completed else BookingStatus.Pending
  {
    Saved(Booking(u.id, f.table, f.date, f.slot, f.guests, f.contact, BookingStatus.Pending), now)
  }

  /** The booking a successful update stores: submitted fields, same owner and status, then saved at `now`. */
  function UpdatedBooking(current: Booking, f: BookingFields, now: Moment): (b: Booking)
    ensures b.user == current.user
    ensures KeyOf(b) == BookingKey(f.table, f.date, f.slot) && b.guests == f.guests && b.contact == f.contact
    ensures b.status == SavedStatus(current.status, f.date, f.slot, now)
  {
    Saved(Booking(current.user, f.table, f.date, f.slot, f.guests, f.contact, current.status), now)
  }

  /**
   * The validator and the database constraint disagree: a cancelled or
   * completed booking does not make a creation request conflict, yet it still
   * holds the (table, date, time_slot) key, so the insert is refused.
   */
  lemma FinalBookingStillHoldsKey(bookings: seq<Booking>, tables: seq<Table>, f: BookingFields, i: nat)
    requires UniqueKeys(bookings)
    requires f.table < |tables|
    requires i < |bookings| && KeyOf(bookings[i]) == BookingKey(f.table, f.date, f.slot)
    requires bookings[i].status.IsFinal()
    ensures ValidateBooking(bookings, tables, f, true) != Fail(Conflict)
    ensures KeyTaken(bookings, BookingKey(f.table, f.date, f.slot), -1)
  {
  }

  /**
   * A booking is found by id exactly when its id is among those the
   * caller's booking list shows.
   */
  lemma FoundIffListed(bookings: seq<Booking>, u: User, id: nat)
    ensures id in VisibleIds(BookingOwners(bookings), u) <==> id < |bookings| && CanSee(u, bookings[id].user)
  {
    var r := VisibleIds(BookingOwners(bookings), u);
    if id in r {
      var k :| 0 <= k < |r| && r[k] == id;
    }
  }

  /**
   * Saving a line as the code does: the line is repriced and written, and
   * only the order it now belongs to is re-totalled.
   */
  function SaveLineAsWritten(menu: seq<MenuItem>, orders: seq<Order>, items: seq<OrderItem>, k: nat, line: OrderItem)
    : (r: (seq<Order>, seq<OrderItem>))
    requires k < |items| && line.order < |orders| && line.menuItem < |menu|
    ensures r.1 == items[k := Repriced(menu, line)]
    ensures |r.0| == |orders| && r.0[line.order].total == Total(r.1, line.order)
    ensures forall o :: 0 <= o < |orders| && o != line.order ==> r.0[o] == orders[o]
  {
    var written := items[k := Repriced(menu, line)];
    (orders[line.order := orders[line.order].(total := Total(written, line.order))], written)
  }

  /**
   * Moving a line to another order, as written, leaves the order it left
   * with a total that still counts it.
   */
  lemma MovedLineLeavesStaleTotal()
    ensures
      var menu := [MenuItem("soup", 500, true)];
      var orders := [Order(1, None, OrderStatus.Pending, 500, "", 0), Order(1, None, OrderStatus.Pending, 0, "", 0)];
      var items := [OrderItem(0, 0, 1, 500, 500)];
      var r := SaveLineAsWritten(menu, orders, items, 0, OrderItem(1, 0, 1, 500, 500));
      && LedgerValid(menu, 0, orders, items)
      && r.0[0].total == 500 && Total(r.1, 0) == 0
      && !TotalsConsistent(r.0, r.1)
  {
    var menu := [MenuItem("soup", 500, true)];
    var orders := [Order(1, None, OrderStatus.Pending, 500, "", 0), Order(1, None, OrderStatus.Pending, 0, "", 0)];
    var items := [OrderItem(0, 0, 1, 500, 500)];
    var r := SaveLineAsWritten(menu, orders, items, 0, OrderItem(1, 0, 1, 500, 500));
    assert Total(items, 0) == 500 && Total(items, 1) == 0;
    assert r.1 == [OrderItem(1, 0, 1, 500, 500)];
    assert Total(r.1, 0) == 0;
  }

  class Store {
    var tables: seq<Table>
    var menu: seq<MenuItem>
    var bookings: seq<Booking>
    var orders: seq<Order>
    var items: seq<OrderItem>

    /**
     * The constraints the store keeps: table capacities and numbers, one booking
     * per (table, date, time_slot), guests within 1..20 and the table's
     * capacity, one line per (order, menu item), line price equal to unit
     * price times quantity, and every order's total equal to the sum of its
     * lines' prices.
     */
    ghost predicate Valid()
      reads this
    {
      && TablesValid(tables)
      && BookingsValid(tables, bookings)
      && LedgerValid(menu, |bookings|, orders, items)
    }

    constructor ()
      ensures Valid()
      ensures tables == [] && menu == [] && bookings == [] && orders == [] && items == []
    {
      tables, menu, bookings, orders, items := [], [], [], [], [];
    }

    // ----------------------------------------------------- catalogue

    /**
     * Staff add a table; the number must be new, the capacity one of the
     * choices and the location at most 50 characters (it may be blank).
     */
    method AddTable(u: User, number: int, capacity: int, location: string, isAvailable: bool)
      returns (r: Result<nat, Error>)
      requires Valid()
      modifies this
      ensures Valid()
      ensures !u.isStaff ==> r == Err(Forbidden)
      ensures r.Ok? <==>
        u.isStaff && ValidCapacity(capacity) && |location| <= 50
        && forall i :: 0 <= i < |old(tables)| ==> old(tables)[i].number != number
      ensures r.Ok? ==>
        r.value == |old(tables)| && tables == old(tables) + [Table(number, capacity, location, isAvailable)]
      ensures r.Err? ==> tables == old(tables)
      ensures menu == old(menu) && bookings == old(bookings) && orders == old(orders) && items == old(items)
    {
      if !u.isStaff {
        return Err(Forbidden);
      }
      if exists i :: 0 <= i < |tables| && tables[i].number == number {
        return Err(InvalidField("number"));
      }
      if !ValidCapacity(capacity) {
        return Err(InvalidField("capacity"));
      }
      if |location| > 50 {
        return Err(InvalidField("location"));
      }
      tables := tables + [Table(number, capacity, location, isAvailable)];
      r := Ok(|tables| - 1);
    }

    /**
     * Staff add a menu item; its name must not be blank and has at most 100
     * characters, and its price is in cents.
     */
    method AddMenuItem(u: User, name: string, price: int, isAvailable: bool) returns (r: Result<nat, Error>)
      requires Valid()
      modifies this
      ensures Valid()
      ensures !u.isStaff ==> r == Err(Forbidden)
      ensures u.isStaff && (IsBlank(name) || |name| > 100) ==> r == Err(InvalidField("name"))
      ensures r.Ok? <==> u.isStaff && !IsBlank(name) && |name| <= 100
      ensures r.Err? ==> menu == old(menu)
      ensures r.Ok? ==> r.value == |old(menu)| && menu == old(menu) + [MenuItem(name, price, isAvailable)]
      ensures tables == old(tables) && bookings == old(bookings) && orders == old(orders) && items == old(items)
    {
      if !u.isStaff {
        return Err(Forbidden);
      }
      if IsBlank(name) || |name| > 100 {
        return Err(InvalidField("name"));
      }
      menu := menu + [MenuItem(name, price, isAvailable)];
      r := Ok(|menu| - 1);
    }

    /**
     * Staff change a menu item's price. Stored lines and order totals keep
     * the price they were saved with until a line is saved again.
     */
    method SetMenuPrice(u: User, id: nat, price: int) returns (r: Outcome<Error>)
      requires Valid()
      modifies this
      ensures Valid()
      ensures !u.isStaff ==> r == Fail(Forbidden)
      ensures u.isStaff && id >= |old(menu)| ==> r == Fail(NotFound)
      ensures r == Pass <==> u.isStaff && id < |old(menu)|
      ensures r == Pass ==> menu == old(menu)[id := old(menu)[id].(price := price)]
      ensures r != Pass ==> menu == old(menu)
      ensures tables == old(tables) && bookings == old(bookings) && orders == old(orders) && items == old(items)
    {
      if !u.isStaff {
        return Fail(Forbidden);
      }
      if id >= |menu| {
        return Fail(NotFound);
      }
      menu := menu[id := menu[id].(price := price)];
      r := Pass;
    }

    // ------------------------------------------------------ bookings

    /**
     * Create a booking for `u`: field validation, then the conflict check,
     * then the capacity check, then the insert under the uniqueness
     * constraint. The stored booking is owned by `u` and pending, or
     * completed if its slot has already started.
     */
    method CreateBooking(u: User, req: BookingRequest, now: Moment) returns (r: Result<nat, Error>)
      requires Valid()
      modifies this
      ensures Valid()
      ensures tables == old(tables) && menu == old(menu) && orders == old(orders) && items == old(items)
      ensures var p := ParseBookingRequest(tables, req);
        p.Err? ==> r == Err(p.error)
      ensures var p := ParseBookingRequest(tables, req);
        p.Ok? && ValidateBooking(old(bookings), tables, p.value, true).Fail? ==>
          r == Err(ValidateBooking(old(bookings), tables, p.value, true).error)
      ensures var p := ParseBookingRequest(tables, req);
        p.Ok? && ValidateBooking(old(bookings), tables, p.value, true) == Pass ==>
          if KeyTaken(old(bookings), BookingKey(p.value.table, p.value.date, p.value.slot), -1)
          then r == Err(IntegrityError)
          else r == Ok(|old(bookings)|) && bookings == old(bookings) + [NewBooking(u, p.value, now)]
      ensures r.Err? ==> bookings == old(bookings)
    {
      var p := ParseBookingRequest(tables, req);
      if p.Err? {
        return Err(p.error);
      }
      var f := p.value;
      var v := ValidateBooking(bookings, tables, f, true);
      if v.Fail? {
        return Err(v.error);
      }
      var key := BookingKey(f.table, f.date, f.slot);
      if exists i :: 0 <= i < |bookings| && KeyOf(bookings[i]) == key {
        return Err(IntegrityError);
      }
      bookings := bookings + [NewBooking(u, f, now)];
      r := Ok(|bookings| - 1);
    }

    /**
     * Update a booking the caller can see: field validation and the capacity
     * check, but no conflict check; then the write under the uniqueness
     * constraint. Owner and status are not submitted; the status is only
     * re-derived by the save.
     */
    method UpdateBooking(u: User, id: nat, req: BookingRequest, now: Moment) returns (r: Result<nat, Error>)
      requires Valid()
      modifies this
      ensures Valid()
      ensures tables == old(tables) && menu == old(menu) && orders == old(orders) && items == old(items)
      ensures r != Err(Conflict)
      ensures r == Err(NotFound) <==> id !in VisibleIds(BookingOwners(old(bookings)), u)
      ensures !(id < |old(bookings)| && CanSee(u, old(bookings)[id].user)) ==> r == Err(NotFound)
      ensures var p := ParseBookingRequest(tables, req);
        id < |old(bookings)| && CanSee(u, old(bookings)[id].user) && p.Err? ==> r == Err(p.error)
      ensures var p := ParseBookingRequest(tables, req);
        id < |old(bookings)| && CanSee(u, old(bookings)[id].user) && p.Ok?
        && p.value.guests > tables[p.value.table].capacity ==>
          r == Err(OverCapacity(tables[p.value.table].capacity))
      ensures var p := ParseBookingRequest(tables, req);
        id < |old(bookings)| && CanSee(u, old(bookings)[id].user) && p.Ok?
        && p.value.guests <= tables[p.value.table].capacity
        && KeyTaken(old(bookings), BookingKey(p.value.table, p.value.date, p.value.slot), id) ==>
          r == Err(IntegrityError)
      ensures var p := ParseBookingRequest(tables, req);
        r.Ok? <==>
          && id < |old(bookings)| && CanSee(u, old(bookings)[id].user)
          && p.Ok? && p.value.guests <= tables[p.value.table].capacity
          && !KeyTaken(old(bookings), BookingKey(p.value.table, p.value.date, p.value.slot), id)
      ensures r.Ok? ==> (r.value == id
        && bookings == old(bookings)[id := UpdatedBooking(old(bookings)[id], ParseBookingRequest(tables, req).value, now)])
      ensures r.Err? ==> bookings == old(bookings)
    {
      FoundIffListed(bookings, u, id);
      if !(id < |bookings| && CanSee(u, bookings[id].user)) {
        return Err(NotFound);
      }
      var p := ParseBookingRequest(tables, req);
      if p.Err? {
        return Err(p.error);
      }
      var f := p.value;
      var v := ValidateBooking(bookings, tables, f, false);
      if v.Fail? {
        return Err(v.error);
      }
      var key := BookingKey(f.table, f.date, f.slot);
      if exists i :: 0 <= i < |bookings| && i != id && KeyOf(bookings[i]) == key {
        return Err(IntegrityError);
      }
      ghost var before := bookings;
      bookings := bookings[id := UpdatedBooking(bookings[id], f, now)];
      assert UniqueKeys(bookings) by {
        forall i, j | 0 <= i < j < |bookings|
          ensures KeyOf(bookings[i]) != KeyOf(bookings[j])
        {
          if i != id && j != id {
            assert KeyOf(before[i]) != KeyOf(before[j]);
          }
        }
      }
      r := Ok(id);
    }

    /**
     * Cancel a booking. The booking is looked up among those the caller can
     * see, so another user's booking is not found; the owner-or-staff guard
     * therefore never refuses. A cancelled or completed booking cannot be
     * cancelled; otherwise it becomes cancelled, and saving keeps it so.
     */
    method CancelBooking(u: User, id: nat, now: Moment) returns (r: Result<Booking, Error>)
      requires Valid()
      modifies this
      ensures Valid()
      ensures tables == old(tables) && menu == old(menu) && orders == old(orders) && items == old(items)
      ensures r != Err(Forbidden)
      ensures r == Err(NotFound) <==> id !in VisibleIds(BookingOwners(old(bookings)), u)
      ensures !(id < |old(bookings)| && CanSee(u, old(bookings)[id].user)) ==> r == Err(NotFound)
      ensures id < |old(bookings)| && CanSee(u, old(bookings)[id].user) && old(bookings)[id].status.IsFinal() ==>
        r == Err(AlreadyFinal(old(bookings)[id].status))
      ensures r.Ok? <==>
        id < |old(bookings)| && CanSee(u, old(bookings)[id].user) && old(bookings)[id].status.IsActive()
      ensures r.Ok? ==>
        && r.value == old(bookings)[id].(status := BookingStatus.Cancelled)
        && bookings == old(bookings)[id := r.value]
      ensures r.Err? ==> bookings == old(bookings)
    {
      FoundIffListed(bookings, u, id);
      if !(id < |bookings| && CanSee(u, bookings[id].user)) {
        return Err(NotFound);
      }
      var b := bookings[id];
      if b.user != u.id && !u.isStaff {
        return Err(Forbidden);
      }
      if b.status.IsFinal() {
        return Err(AlreadyFinal(b.status));
      }
      b := Saved(b.(status := BookingStatus.Cancelled), now);
      bookings := bookings[id := b];
      r := Ok(b);
    }

    // -------------------------------------------------------- orders

    /**
     * Save an order line: a new row when `target` is None, otherwise row
     * `target`, which may be moved to another order. The unit price is
     * re-read from the menu and the line price recomputed before the write;
     * the write is refused when another line of the order already has this
     * menu item. After the write the line's order is re-totalled from all of
     * its lines, and so is the order the line left, if it moved.
     */
    method SaveItem(target: Option<nat>, line: OrderItem) returns (r: Result<nat, Error>)
      requires Valid()
      requires line.order < |orders| && line.menuItem < |menu|
      requires target.Some? ==> target.value < |items|
      modifies this
      ensures Valid()
      ensures tables == old(tables) && menu == old(menu) && bookings == old(bookings)
      ensures var skip := if target.Some? then target.value else -1;
        r.Err? <==> LineTaken(old(items), line.order, line.menuItem, skip)
      ensures r.Err? ==> r == Err(IntegrityError) && items == old(items) && orders == old(orders)
      ensures |orders| == |old(orders)|
      ensures r.Ok? && target.None? ==>
        && r.value == |old(items)| && items == old(items) + [Repriced(menu, line)]
        && orders[line.order].total == old(orders)[line.order].total + items[r.value].price
      ensures r.Ok? && target.Some? ==>
        && r.value == target.value && items == old(items)[target.value := Repriced(menu, line)]
        && (old(items)[target.value].order == line.order ==>
              orders[line.order].total
              == old(orders)[line.order].total - old(items)[target.value].price + items[r.value].price)
        && (old(items)[target.value].order != line.order ==>
              && orders[line.order].total == old(orders)[line.order].total + items[r.value].price
              && orders[old(items)[target.value].order].total
                 == old(orders)[old(items)[target.value].order].total - old(items)[target.value].price)
      ensures r.Ok? ==>
        && items[r.value].unitPrice == menu[line.menuItem].price
        && items[r.value].price == items[r.value].unitPrice * line.quantity
        && (forall o :: 0 <= o < |orders| ==> orders[o] == old(orders)[o].(total := orders[o].total))
        && (forall o :: 0 <= o < |orders| && o != line.order && (target.None? || o != old(items)[target.value].order)
              ==> orders[o] == old(orders)[o])
    {
      var saved := Repriced(menu, line);
      var skip := if target.Some? then target.value else -1;
      if exists i :: 0 <= i < |items| && i != skip && items[i].order == line.order && items[i].menuItem == line.menuItem {
        return Err(IntegrityError);
      }
      ghost var before := items;
      var left := line.order;
      if target.Some? {
        left := items[target.value].order;
        ReplaceLineKeepsLedger(menu, |bookings|, orders, items, target.value, saved);
        TotalUpdate(items, target.value, saved, line.order);
        TotalUpdate(items, target.value, saved, left);
        items := items[target.value := saved];
        r := Ok(target.value);
      } else {
        AppendLineKeepsLedger(menu, |bookings|, orders, items, saved);
        TotalAppend(items, saved, line.order);
        items := items + [saved];
        r := Ok(|items| - 1);
      }
      orders := Retotalled(orders, items, left, line.order);
    }

    /**
     * Create an order for `u` from a list of entries: the order is inserted
     * with total zero, then each entry's line is saved in turn. Saving stops
     * at the first entry whose menu item an earlier entry already named; the
     * order and the lines saved before it remain.
     */
    method CreateOrder(u: User, booking: Option<int>, instructions: string, entries: seq<ItemEntry>, today: Date)
      returns (r: Result<nat, Error>)
      requires Valid()
      modifies this
      ensures Valid()
      ensures tables == old(tables) && menu == old(menu) && bookings == old(bookings)
      ensures ValidateOrderRequest(menu, |bookings|, booking, entries).Fail? ==>
        r == Err(ValidateOrderRequest(menu, |bookings|, booking, entries).error)
        && orders == old(orders) && items == old(items)
      ensures ValidateOrderRequest(menu, |bookings|, booking, entries) == Pass ==>
        var id := |old(orders)|;
        var k := FirstRepeat(entries);
        && (r.Ok? <==> DistinctMenuItems(entries))
        && (r.Ok? ==> r.value == id)
        && (r.Err? ==> r == Err(IntegrityError))
        && |orders| == id + 1 && orders[..id] == old(orders)
        && orders[id].user == u.id && orders[id].status == OrderStatus.Pending
        && orders[id].booking == (if booking.Some? then Some(booking.value as nat) else None)
        && orders[id].instructions == instructions && orders[id].createdOn == today
        && items == old(items) + Lines(id, menu, entries[..k])
        && orders[id].total == EntriesTotal(menu, entries[..k])
    {
      var v := ValidateOrderRequest(menu, |bookings|, booking, entries);
      if v.Fail? {
        return Err(v.error);
      }
      var id := |orders|;
      var ref: Option<nat> := if booking.Some? then Some(booking.value as nat) else None;
      var created := Order(u.id, ref, OrderStatus.Pending, 0, instructions, today);
      forall i | 0 <= i < |items|
        ensures items[i].order != id
      {
        assert LineValid(menu, |orders|, items[i]);
      }
      TotalOfUnreferenced(items, id);
      orders := orders + [created];
      ghost var oldItems := items;
      var i := 0;
      while i < |entries|
        invariant Valid()
        invariant tables == old(tables) && menu == old(menu) && bookings == old(bookings)
        invariant 0 <= i <= FirstRepeat(entries)
        invariant |orders| == id + 1 && orders[..id] == old(orders)
        invariant orders[id] == created.(total := orders[id].total)
        invariant items == oldItems + Lines(id, menu, entries[..i])
        invariant forall j :: 0 <= j < |oldItems| ==> oldItems[j].order != id
      {
        var e := entries[i];
        assert entries[..i + 1] == entries[..i] + [e];
        assert Lines(id, menu, entries[..i + 1]) == Lines(id, menu, entries[..i]) + [LineFor(id, menu, e)];
        LineTakenIffRepeat(oldItems, id, menu, entries, i);
        var saved := SaveItem(None, OrderItem(id, e.menuItem, e.quantity, e.unitPrice, e.price));
        if saved.Err? {
          FirstRepeatIsEndIffDistinct(entries);
          TotalOfNewOrder(oldItems, id, menu, entries[..i]);
          return Err(IntegrityError);
        }
        i := i + 1;
      }
      FirstRepeatIsEndIffDistinct(entries);
      TotalOfNewOrder(oldItems, id, menu, entries[..i]);
      r := Ok(id);
    }

    /**
     * Staff set an order's status to any of the six values, from any status;
     * anything else about the order is unchanged.
     */
    method UpdateOrderStatus(u: User, id: nat, status: string) returns (r: Result<Order, Error>)
      requires Valid()
      modifies this
      ensures Valid()
      ensures tables == old(tables) && menu == old(menu) && bookings == old(bookings) && items == old(items)
      ensures !u.isStaff ==> r == Err(Forbidden)
      ensures u.isStaff && id >= |old(orders)| ==> r == Err(NotFound)
      ensures u.isStaff && id < |old(orders)| && ParseOrderStatus(status).None? ==> r == Err(InvalidStatus)
      ensures r.Ok? <==> u.isStaff && id < |old(orders)| && ParseOrderStatus(status).Some?
      ensures r.Ok? ==>
        && OrderStatusKey(r.value.status) == status
        && r.value == old(orders)[id].(status := r.value.status)
        && orders == old(orders)[id := r.value]
      ensures r.Err? ==> orders == old(orders)
    {
      if !u.isStaff {
        return Err(Forbidden);
      }
      if id >= |orders| {
        return Err(NotFound);
      }
      var s := ParseOrderStatus(status);
      if s.None? {
        return Err(InvalidStatus);
      }
      orders := orders[id := orders[id].(status := s.value)];
      r := Ok(orders[id]);
    }
  }

  /**
   * While an order's lines are being saved, the line for entry `i` collides
   * with an existing line exactly when an earlier entry named the same menu
   * item.
   */
  lemma LineTakenIffRepeat(oldItems: seq<OrderItem>, id: nat, menu: seq<MenuItem>, entries: seq<ItemEntry>, i: nat)
    requires i < |entries| && EntriesValid(menu, entries)
    requires forall j :: 0 <= j < |oldItems| ==> oldItems[j].order != id
    ensures LineTaken(oldItems + Lines(id, menu, entries[..i]), id, entries[i].menuItem, -1)
      <==> RepeatsEarlier(entries, i)
  {
    var all := oldItems + Lines(id, menu, entries[..i]);
    if LineTaken(all, id, entries[i].menuItem, -1) {
      var j :| 0 <= j < |all| && all[j].order == id && all[j].menuItem == entries[i].menuItem;
      assert j >= |oldItems|;
      assert all[j] == LineFor(id, menu, entries[j - |oldItems|]);
    }
    if RepeatsEarlier(entries, i) {
      var j :| 0 <= j < i && entries[j].menuItem == entries[i].menuItem;
      assert all[|oldItems| + j] == LineFor(id, menu, entries[j]);
    }
  }
}

=== FILE: models.dfy ===
/**
 * The restaurant's persistent entities: tables, bookings, menu items, orders
 * and order items, with the behaviour their model classes attach to saving
 * (automatic completion of past bookings, repricing of order lines and the
 * recomputed order total) and the uniqueness constraints of their tables.
 *
 * Prices are integer cents. Row identities are positions in the store's
 * sequences (see module Database).
 */
module Models {
  import opened Wrappers

  type UserId = nat

  /** An authenticated user: an id and the is_staff flag. */
  datatype User = User(id: UserId, isStaff: bool)

  /** The errors the core reports. */
  datatype Error =
    | NotFound                              // 404: not in the caller's queryset
    | Forbidden                             // 403: ownership or staff guard
    | InvalidField(field: string)           // 400: field-level validation
    | Conflict                              // 400: table already booked for that date and slot
    | OverCapacity(maximum: int)            // 400: more guests than the table seats
    | AlreadyFinal(status: BookingStatus)   // 400: cancel of a cancelled or completed booking
    | InvalidStatus                         // 400: order status outside the enumeration
    | MissingDate                           // 400: available-slots query without a date
    | PasswordMismatch                      // 400: the two registration passwords differ
    | IntegrityError                        // a database uniqueness constraint refused the write

  // ---------------------------------------------------------------- time

  /** Calendar days, numbered consecutively. */
  type Date = int

  const MicrosPerHour: int := 3_600_000_000
  const MicrosPerDay: int := 24 * MicrosPerHour

  /** A point in time: a day and the microseconds elapsed since its midnight. */
  datatype Moment = Moment(date: Date, micros: int)

  predicate ValidMoment(m: Moment) {
    0 <= m.micros < MicrosPerDay
  }

  /** Position of a moment on a single time line. */
  function Ticks(m: Moment): int {
    m.date * MicrosPerDay + m.micros
  }

  predicate Before(a: Moment, b: Moment) {
    Ticks(a) < Ticks(b)
  }

  // -------------------------------------------------------------- tables

  datatype Table = Table(number: int, capacity: int, location: string, isAvailable: bool)

  /** The capacities a table may be given: 2, 4, 6 or 8 persons. */
  predicate ValidCapacity(c: int) {
    c == 2 || c == 4 || c == 6 || c == 8
  }

  /** Every capacity is one of the choices and table numbers are unique. */
  predicate TablesValid(tables: seq<Table>) {
    && (forall i :: 0 <= i < |tables| ==> ValidCapacity(tables[i].capacity))
    && (forall i, j :: 0 <= i < j < |tables| ==> tables[i].number != tables[j].number)
  }

  // ------------------------------------------------------------ bookings

  /** The six reservation slots, in their declared order. */
  datatype Slot = At1700 | At1800 | At1900 | At2000 | At2100 | At2200

  const AllSlots: seq<Slot> := [At1700, At1800, At1900, At2000, At2100, At2200]

  /** Position of a slot in the declared order. */
  function SlotIndex(s: Slot): (i: nat)
    ensures i < |AllSlots| && AllSlots[i] == s
  {
    match s
    case At1700 => 0
    case At1800 => 1
    case At1900 => 2
    case At2000 => 3
    case At2100 => 4
    case At2200 => 5
  }

  /** The stored value of a slot, an "HH:MM" string. */
  function SlotLabel(s: Slot): string {
    match s
    case At1700 => "17:00"
    case At1800 => "18:00"
    case At1900 => "19:00"
    case At2000 => "20:00"
    case At2100 => "21:00"
    case At2200 => "22:00"
  }

  /** The human-readable label of a slot. */
  function DisplayTime(s: Slot): string {
    match s
    case At1700 => "5:00 PM"
    case At1800 => "6:00 PM"
    case At1900 => "7:00 PM"
    case At2000 => "8:00 PM"
    case At2100 => "9:00 PM"
    case At2200 => "10:00 PM"
  }

  /** The choice-field check on a submitted slot value. */
  function ParseSlot(x: string): (r: Option<Slot>)
    ensures r.Some? ==> SlotLabel(r.value) == x
    ensures r.None? ==> forall s: Slot :: SlotLabel(s) != x
  {
    if x == "17:00" then Some(At1700)
    else if x == "18:00" then Some(At1800)
    else if x == "19:00" then Some(At1900)
    else if x == "20:00" then Some(At2000)
    else if x == "21:00" then Some(At2100)
    else if x == "22:00" then Some(At2200)
    else None
  }

  /** The hour read from the first two digits of an "HH:MM" string. */
  function LabelHour(x: string): int
    requires |x| >= 2
  {
    ((x[0] as int) - ('0' as int)) * 10 + ((x[1] as int) - ('0' as int))
  }

  /** The start hour of a slot, as parsed from its stored label. */
  function StartHour(s: Slot): (h: int)
    ensures h == 17 + SlotIndex(s)
  {
    LabelHour(SlotLabel(s))
  }

  datatype BookingStatus = Pending | Confirmed | Cancelled | Completed {
    /** The statuses that hold a table. */
    predicate IsActive() { Pending? || Confirmed? }
    /** The statuses a booking never leaves on save and that cannot be cancelled. */
    predicate IsFinal() { Cancelled? || Completed? }
  }

  datatype Contact = Contact(name: string, email: string, phone: string, specialRequests: string)

  datatype Booking = Booking(
    user: UserId,
    table: nat,
    date: Date,
    slot: Slot,
    guests: int,
    contact: Contact,
    status: BookingStatus)

  /** The key of the (table, date, time_slot) uniqueness constraint. */
  datatype BookingKey = BookingKey(table: nat, date: Date, slot: Slot)

  function KeyOf(b: Booking): BookingKey {
    BookingKey(b.table, b.date, b.slot)
  }

  /** The moment a slot starts on a given day. */
  function SlotStart(date: Date, slot: Slot): (m: Moment)
    ensures ValidMoment(m) && m.date == date
  {
    Moment(date, StartHour(slot) * MicrosPerHour)
  }

  /** A booking is past due when its slot started strictly before now. */
  predicate IsPastDue(date: Date, slot: Slot, now: Moment) {
    Before(SlotStart(date, slot), now)
  }

  /** Past-due compares by day first and by start time within the same day. */
  lemma PastDueByCalendar(date: Date, slot: Slot, now: Moment)
    requires ValidMoment(now)
    ensures IsPastDue(date, slot, now) <==>
      date < now.date || (date == now.date && StartHour(slot) * MicrosPerHour < now.micros)
  {
    var start := SlotStart(date, slot);
    if date < now.date {
      assert Ticks(start) < (date + 1) * MicrosPerDay <= now.date * MicrosPerDay <= Ticks(now);
    } else if date > now.date {
      assert Ticks(now) < (now.date + 1) * MicrosPerDay <= date * MicrosPerDay <= Ticks(start);
    }
  }

  /** Once past due, a booking stays past due. */
  lemma PastDueStays(date: Date, slot: Slot, now: Moment, later: Moment)
    requires Ticks(now) <= Ticks(later)
    requires IsPastDue(date, slot, now)
    ensures IsPastDue(date, slot, later)
  {
  }

  /** The status a booking is stored with when it is saved at `now`. */
  function SavedStatus(status: BookingStatus, date: Date, slot: Slot, now: Moment): (r: BookingStatus)
    ensures status.IsFinal() ==> r == status
    ensures status.IsActive() ==> (r == Completed <==> IsPastDue(date, slot, now))
    ensures r != status ==> r == Completed
  {
    if IsPastDue(date, slot, now) && !status.IsFinal() then Completed else status
  }

  /** Saving a booking: only its status may change, and a past-due booking is never left active. */
  function Saved(b: Booking, now: Moment): (r: Booking)
    ensures r == b.(status := r.status)
    ensures IsPastDue(b.date, b.slot, now) ==> !r.status.IsActive()
    ensures !IsPastDue(b.date, b.slot, now) ==> r == b
    ensures b.status.IsFinal() ==> r == b
  {
    b.(status := SavedStatus(b.status, b.date, b.slot, now))
  }

  /** Saving twice at the same moment is the same as saving once. */
  lemma SavedIdempotent(b: Booking, now: Moment)
    ensures Saved(Saved(b, now), now) == Saved(b, now)
  {
  }

  /** Some booking of the table for that date and slot is pending or confirmed. */
  predicate HasActiveBooking(bookings: seq<Booking>, table: nat, date: Date, slot: Slot) {
    exists i :: 0 <= i < |bookings| && KeyOf(bookings[i]) == BookingKey(table, date, slot)
      && bookings[i].status.IsActive()
  }

  /** Some row other than `skip` already holds the key, whatever its status. */
  predicate KeyTaken(bookings: seq<Booking>, key: BookingKey, skip: int) {
    exists i :: 0 <= i < |bookings| && i != skip && KeyOf(bookings[i]) == key
  }

  /** The database constraint: no two bookings share (table, date, time_slot). */
  predicate UniqueKeys(bookings: seq<Booking>) {
    forall i, j :: 0 <= i < j < |bookings| ==> KeyOf(bookings[i]) != KeyOf(bookings[j])
  }

  /** The field constraints of one stored booking. */
  predicate BookingRowValid(tables: seq<Table>, b: Booking) {
    b.table < |tables| && 1 <= b.guests <= 20 && b.guests <= tables[b.table].capacity
  }

  predicate BookingsValid(tables: seq<Table>, bookings: seq<Booking>) {
    && UniqueKeys(bookings)
    && forall i :: 0 <= i < |bookings| ==> BookingRowValid(tables, bookings[i])
  }

  // -------------------------------------------------------------- orders

  datatype OrderStatus = Pending | Confirmed | Preparing | Ready | Delivered | Cancelled

  /** The stored value of an order status. */
  function OrderStatusKey(s: OrderStatus): string {
    match s
    case Pending => "pending"
    case Confirmed => "confirmed"
    case Preparing => "preparing"
    case Ready => "ready"
    case Delivered => "delivered"
    case Cancelled => "cancelled"
  }

  /** Membership of a submitted value in the order status choices. */
  function ParseOrderStatus(x: string): (r: Option<OrderStatus>)
    ensures r.Some? ==> OrderStatusKey(r.value) == x
    ensures r.None? ==> forall s: OrderStatus :: OrderStatusKey(s) != x
  {
    if x == "pending" then Some(OrderStatus.Pending)
    else if x == "confirmed" then Some(OrderStatus.Confirmed)
    else if x == "preparing" then Some(Preparing)
    else if x == "ready" then Some(Ready)
    else if x == "delivered" then Some(Delivered)
    else if x == "cancelled" then Some(OrderStatus.Cancelled)
    else None
  }

  /** A menu item; `price` in cents. */
  datatype MenuItem = MenuItem(name: string, price: int, isAvailable: bool)

  /** An order; `total` in cents, `createdOn` the day it was created. */
  datatype Order = Order(
    user: UserId,
    booking: Option<nat>,
    status: OrderStatus,
    total: int,
    instructions: string,
    createdOn: Date)

  /** One line of an order; `unitPrice` and `price` in cents. */
  datatype OrderItem = OrderItem(order: nat, menuItem: nat, quantity: nat, unitPrice: int, price: int)

  /** Saving an order item: the unit price is re-read from the menu and the line price recomputed. */
  function Repriced(menu: seq<MenuItem>, item: OrderItem): (r: OrderItem)
    requires item.menuItem < |menu|
    ensures r.unitPrice == menu[item.menuItem].price
    ensures r.price == r.unitPrice * r.quantity
    ensures r.order == item.order && r.menuItem == item.menuItem && r.quantity == item.quantity
  {
    var unitPrice := menu[item.menuItem].price;
    item.(unitPrice := unitPrice, price := unitPrice * item.quantity)
  }

  /** What a line contributes to the total of order `o`. */
  function LinePrice(item: OrderItem, o: nat): int {
    if item.order == o then item.price else 0
  }

  /** The sum of `price` over the items of order `o`. */
  function Total(items: seq<OrderItem>, o: nat): int
    decreases |items|
  {
    if items == [] then 0
    else Total(items[..|items| - 1], o) + LinePrice(items[|items| - 1], o)
  }

  lemma TotalAppend(items: seq<OrderItem>, x: OrderItem, o: nat)
    ensures Total(items + [x], o) == Total(items, o) + LinePrice(x, o)
  {
    assert (items + [x])[..|items|] == items;
  }

  /** Replacing one line changes each total by exactly that line's difference. */
  lemma {:induction false} TotalUpdate(items: seq<OrderItem>, k: nat, x: OrderItem, o: nat)
    requires k < |items|
    ensures Total(items[k := x], o) == Total(items, o) - LinePrice(items[k], o) + LinePrice(x, o)
    decreases |items|
  {
    var n := |items| - 1;
    var updated := items[k := x];
    assert updated[..n] == if k < n then items[..n][k := x] else items[..n];
    if k < n {
      TotalUpdate(items[..n], k, x, o);
    }
  }

  /** An order no line refers to totals zero. */
  lemma {:induction false} TotalOfUnreferenced(items: seq<OrderItem>, o: nat)
    requires forall i :: 0 <= i < |items| ==> items[i].order != o
    ensures Total(items, o) == 0
    decreases |items|
  {
    if items != [] {
      TotalOfUnreferenced(items[..|items| - 1], o);
    }
  }

  /** The database constraint: one line per (order, menu item). */
  predicate UniqueLines(items: seq<OrderItem>) {
    forall i, j :: 0 <= i < j < |items| ==>
      items[i].order != items[j].order || items[i].menuItem != items[j].menuItem
  }

  /** Some line other than `skip` already pairs this order with this menu item. */
  predicate LineTaken(items: seq<OrderItem>, order: nat, menuItem: nat, skip: int) {
    exists i :: 0 <= i < |items| && i != skip && items[i].order == order && items[i].menuItem == menuItem
  }

  /** References of one line are valid and its price is unit price times quantity. */
  predicate LineValid(menu: seq<MenuItem>, orderCount: nat, item: OrderItem) {
    item.order < orderCount && item.menuItem < |menu| && item.price == item.unitPrice * item.quantity
  }

  /** Every order's total is the sum of its lines' prices. */
  predicate TotalsConsistent(orders: seq<Order>, items: seq<OrderItem>) {
    forall o :: 0 <= o < |orders| ==> orders[o].total == Total(items, o)
  }

  predicate LedgerValid(menu: seq<MenuItem>, bookingCount: nat, orders: seq<Order>, items: seq<OrderItem>) {
    && (forall i :: 0 <= i < |items| ==> LineValid(menu, |orders|, items[i]))
    && UniqueLines(items)
    && TotalsConsistent(orders, items)
    && (forall o :: 0 <= o < |orders| && orders[o].booking.Some? ==> orders[o].booking.value < bookingCount)
  }

  /** Replacing a line leaves alone the total of every order other than the line's old and new orders. */
  lemma TotalsAfterLineChange(items: seq<OrderItem>, k: nat, x: OrderItem)
    requires k < |items|
    ensures forall p :: p != items[k].order && p != x.order ==> Total(items[k := x], p) == Total(items, p)
  {
    forall p | p != items[k].order && p != x.order
      ensures Total(items[k := x], p) == Total(items, p)
    {
      TotalUpdate(items, k, x, p);
    }
  }

  /** The orders with orders `a` and `b` re-totalled from the lines. */
  function Retotalled(orders: seq<Order>, items: seq<OrderItem>, a: nat, b: nat): (r: seq<Order>)
    requires a < |orders| && b < |orders|
    ensures |r| == |orders|
    ensures forall o :: 0 <= o < |orders| ==>
      r[o] == orders[o].(total := if o == a || o == b then Total(items, o) else orders[o].total)
  {
    var first := orders[a := orders[a].(total := Total(items, a))];
    first[b := first[b].(total := Total(items, b))]
  }

  /**
   * Writing a valid line over row `k`, when no other line pairs its order
   * with its menu item, keeps the ledger valid once the line's old and new
   * orders are re-totalled.
   */
  lemma ReplaceLineKeepsLedger(menu: seq<MenuItem>, bookingCount: nat, orders: seq<Order>, items: seq<OrderItem>, k: nat, x: OrderItem)
    requires LedgerValid(menu, bookingCount, orders, items)
    requires k < |items| && LineValid(menu, |orders|, x) && !LineTaken(items, x.order, x.menuItem, k)
    ensures LedgerValid(menu, bookingCount, Retotalled(orders, items[k := x], items[k].order, x.order), items[k := x])
  {
    var written := items[k := x];
    var r := Retotalled(orders, written, items[k].order, x.order);
    TotalsAfterLineChange(items, k, x);
    assert TotalsConsistent(r, written) by {
      forall o | 0 <= o < |r|
        ensures r[o].total == Total(written, o)
      {
        if o != items[k].order && o != x.order {
          assert r[o].total == orders[o].total == Total(items, o);
        }
      }
    }
    assert UniqueLines(written) by {
      forall i, j | 0 <= i < j < |written|
        ensures written[i].order != written[j].order || written[i].menuItem != written[j].menuItem
      {
        if i != k && j != k {
          assert written[i] == items[i] && written[j] == items[j];
        }
      }
    }
    assert forall o :: 0 <= o < |r| ==> r[o].booking == orders[o].booking;
  }

  /**
   * Appending a valid line, when no line pairs its order with its menu item,
   * keeps the ledger valid once its order is re-totalled.
   */
  lemma AppendLineKeepsLedger(menu: seq<MenuItem>, bookingCount: nat, orders: seq<Order>, items: seq<OrderItem>, x: OrderItem)
    requires LedgerValid(menu, bookingCount, orders, items)
    requires LineValid(menu, |orders|, x) && !LineTaken(items, x.order, x.menuItem, -1)
    ensures LedgerValid(menu, bookingCount, Retotalled(orders, items + [x], x.order, x.order), items + [x])
  {
    var written := items + [x];
    var r := Retotalled(orders, written, x.order, x.order);
    assert TotalsConsistent(r, written) by {
      forall o | 0 <= o < |r|
        ensures r[o].total == Total(written, o)
      {
        TotalAppend(items, x, o);
      }
    }
    assert forall o :: 0 <= o < |r| ==> r[o].booking == orders[o].booking;
  }
}

=== FILE: serializers.dfy ===
/**
 * The request-level validation of bookings, registrations and orders: the
 * field checks a submitted booking goes through, the booking validator
 * (conflict check on creation only, then the capacity check), the password
 * confirmation check, and the order lines that creating an order inserts.
 */
module Serializers {
  import opened Wrappers
  import opened Models

  // ------------------------------------------------------------ bookings

  /**
   * What a client submits to create or update a booking. The owner and the
   * status are read-only and cannot be submitted; `table` is the submitted
   * primary key and `timeSlot` the submitted slot value.
   */
  datatype BookingRequest = BookingRequest(
    table: int,
    date: Date,
    timeSlot: string,
    guests: int,
    contact: Contact)

  /** A booking request whose fields passed field-level validation. */
  datatype BookingFields = BookingFields(table: nat, date: Date, slot: Slot, guests: int, contact: Contact)

  /** The characters Python's `str.strip()` removes: Unicode whitespace and the ASCII separators. */
  predicate IsSpace(c: char) {
    || c in {' ', '\t', '\n', '\r', '\U{B}', '\U{C}', '\U{1C}', '\U{1D}', '\U{1E}', '\U{1F}', '\U{85}', '\U{A0}'}
    || c in {'\U{1680}', '\U{2028}', '\U{2029}', '\U{202F}', '\U{205F}', '\U{3000}'}
    || '\U{2000}' <= c <= '\U{200A}'
  }

  /** Nothing but whitespace: what is left after stripping is empty. */
  predicate IsBlank(s: string) {
    forall i :: 0 <= i < |s| ==> IsSpace(s[i])
  }

  /** A domain with a dot that is neither its first nor its last character, or the allowed `localhost`. */
  predicate DomainShaped(d: string) {
    d == "localhost" || exists j :: 0 < j < |d| - 1 && d[j] == '.'
  }

  /** One `@` with a non-empty local part before it and a dotted (or `localhost`) domain after it. */
  predicate EmailShaped(e: string) {
    exists i :: 0 < i < |e| && e[i] == '@' && '@' !in e[..i] && '@' !in e[i + 1..] && DomainShaped(e[i + 1..])
  }

  /**
   * The contact fields' own checks: a name that is not blank and has at most
   * 100 characters, an email address of at most 254 characters, and a phone
   * number that is not blank and has at most 15 characters; special requests
   * may be anything, including blank.
   */
  predicate ContactValid(c: Contact) {
    && !IsBlank(c.name) && |c.name| <= 100
    && EmailShaped(c.email) && |c.email| <= 254
    && !IsBlank(c.phone) && |c.phone| <= 15
  }

  /** The first contact field that fails its check. */
  function ContactError(c: Contact): (r: Option<Error>)
    ensures r.None? <==> ContactValid(c)
    ensures r.Some? ==> r.value in {InvalidField("customer_name"), InvalidField("customer_email"), InvalidField("customer_phone")}
    ensures IsBlank(c.name) || |c.name| > 100 ==> r == Some(InvalidField("customer_name"))
    ensures !IsBlank(c.name) && |c.name| <= 100 && (!EmailShaped(c.email) || |c.email| > 254) ==>
      r == Some(InvalidField("customer_email"))
    ensures
      && !IsBlank(c.name) && |c.name| <= 100 && EmailShaped(c.email) && |c.email| <= 254
      && (IsBlank(c.phone) || |c.phone| > 15)
      ==> r == Some(InvalidField("customer_phone"))
  {
    if IsBlank(c.name) || |c.name| > 100 then Some(InvalidField("customer_name"))
    else if !EmailShaped(c.email) || |c.email| > 254 then Some(InvalidField("customer_email"))
    else if IsBlank(c.phone) || |c.phone| > 15 then Some(InvalidField("customer_phone"))
    else None
  }

  /** A blank or whitespace-only phone number is refused, whatever the other fields hold. */
  lemma BlankPhoneRefused(c: Contact)
    requires IsBlank(c.phone)
    ensures !ContactValid(c)
    ensures ContactError(c).Some?
  {
  }

  /**
   * Field-level validation: the table must exist, the slot must be one of the
   * six choices, the guest count must lie in 1..20 and the contact fields
   * must pass their checks. The first failing field is reported.
   */
  function ParseBookingRequest(tables: seq<Table>, req: BookingRequest): (r: Result<BookingFields, Error>)
    ensures r.Ok? <==>
      0 <= req.table < |tables| && ParseSlot(req.timeSlot).Some? && 1 <= req.guests <= 20
      && ContactValid(req.contact)
    ensures r.Ok? ==>
      && r.value.table == req.table && r.value.date == req.date
      && SlotLabel(r.value.slot) == req.timeSlot
      && r.value.guests == req.guests && r.value.contact == req.contact
    ensures r.Err? ==> r.error.InvalidField?
    ensures !(0 <= req.table < |tables|) ==> r == Err(InvalidField("table"))
    ensures 0 <= req.table < |tables| && ParseSlot(req.timeSlot).None? ==> r == Err(InvalidField("time_slot"))
    ensures 0 <= req.table < |tables| && ParseSlot(req.timeSlot).Some? && !(1 <= req.guests <= 20) ==>
      r == Err(InvalidField("number_of_guests"))
    ensures 0 <= req.table < |tables| && ParseSlot(req.timeSlot).Some? && 1 <= req.guests <= 20 && !ContactValid(req.contact) ==>
      r == Err(ContactError(req.contact).value)
  {
    if !(0 <= req.table < |tables|) then Err(InvalidField("table"))
    else match ParseSlot(req.timeSlot)
      case None => Err(InvalidField("time_slot"))
      case Some(slot) =>
        if !(1 <= req.guests <= 20) then Err(InvalidField("number_of_guests"))
        else match ContactError(req.contact)
          case Some(e) => Err(e)
          case None => Ok(BookingFields(req.table, req.date, slot, req.guests, req.contact))
  }

  /**
   * The booking validator. On creation (`isCreate`, no existing instance) a
   * pending or confirmed booking of the same table, date and slot is a
   * conflict; then, on creation and update alike, more guests than the
   * table's capacity is rejected. The conflict is reported first.
   */
  function ValidateBooking(bookings: seq<Booking>, tables: seq<Table>, f: BookingFields, isCreate: bool): (r: Outcome<Error>)
    requires f.table < |tables|
    ensures r == Fail(Conflict) <==> isCreate && HasActiveBooking(bookings, f.table, f.date, f.slot)
    ensures r == Fail(OverCapacity(tables[f.table].capacity)) <==>
      !(isCreate && HasActiveBooking(bookings, f.table, f.date, f.slot)) && f.guests > tables[f.table].capacity
    ensures r == Pass <==>
      !(isCreate && HasActiveBooking(bookings, f.table, f.date, f.slot)) && f.guests <= tables[f.table].capacity
  {
    if isCreate && HasActiveBooking(bookings, f.table, f.date, f.slot) then Fail(Conflict)
    else if f.guests > tables[f.table].capacity then Fail(OverCapacity(tables[f.table].capacity))
    else Pass
  }

  /** Cancelled and completed bookings never affect the validator's verdict. */
  lemma ValidateIgnoresFinalBookings(bookings: seq<Booking>, b: Booking, tables: seq<Table>, f: BookingFields, isCreate: bool)
    requires f.table < |tables|
    requires b.status.IsFinal()
    ensures ValidateBooking(bookings + [b], tables, f, isCreate) == ValidateBooking(bookings, tables, f, isCreate)
  {
    var extended := bookings + [b];
    if HasActiveBooking(extended, f.table, f.date, f.slot) {
      var i :| 0 <= i < |extended| && KeyOf(extended[i]) == BookingKey(f.table, f.date, f.slot)
        && extended[i].status.IsActive();
      assert i < |bookings| && bookings[i] == extended[i];
    }
    if HasActiveBooking(bookings, f.table, f.date, f.slot) {
      var i :| 0 <= i < |bookings| && KeyOf(bookings[i]) == BookingKey(f.table, f.date, f.slot)
        && bookings[i].status.IsActive();
      assert extended[i] == bookings[i];
    }
  }

  // ------------------------------------------------------- registration

  /** Registration is refused when the password and its confirmation differ. */
  function ValidateRegistration(password: string, password2: string): (r: Outcome<Error>)
    ensures r == Pass <==> password == password2
    ensures r != Pass ==> r == Fail(PasswordMismatch)
  {
    if password != password2 then Fail(PasswordMismatch) else Pass
  }

  // -------------------------------------------------------------- orders

  /**
   * One entry of an order's `items` list. The client must send a unit price
   * and a price; saving the line overwrites both.
   */
  datatype ItemEntry = ItemEntry(menuItem: int, quantity: int, unitPrice: int, price: int)

  /** The menu item exists and the quantity is a non-negative integer. */
  predicate EntryValid(menu: seq<MenuItem>, e: ItemEntry) {
    0 <= e.menuItem < |menu| && e.quantity >= 0
  }

  predicate EntriesValid(menu: seq<MenuItem>, entries: seq<ItemEntry>) {
    forall i :: 0 <= i < |entries| ==> EntryValid(menu, entries[i])
  }

  /** Field-level validation of an order: an existing booking if one is given, and valid entries. */
  function ValidateOrderRequest(menu: seq<MenuItem>, bookingCount: nat, booking: Option<int>, entries: seq<ItemEntry>): (r: Outcome<Error>)
    ensures r == Pass <==>
      (booking.Some? ==> 0 <= booking.value < bookingCount) && EntriesValid(menu, entries)
    ensures r != Pass ==> r.Fail? && r.error.InvalidField?
  {
    if booking.Some? && !(0 <= booking.value < bookingCount) then Fail(InvalidField("booking"))
    else if !EntriesValid(menu, entries) then Fail(InvalidField("items"))
    else Pass
  }

  /** The line that saving an entry stores: prices come from the menu, whatever the client sent. */
  function LineFor(order: nat, menu: seq<MenuItem>, e: ItemEntry): (r: OrderItem)
    requires EntryValid(menu, e)
    ensures r.order == order && r.menuItem == e.menuItem && r.quantity == e.quantity
    ensures r.unitPrice == menu[e.menuItem].price && r.price == menu[e.menuItem].price * e.quantity
  {
    Repriced(menu, OrderItem(order, e.menuItem, e.quantity, e.unitPrice, e.price))
  }

  /** The lines stored for a list of entries, in order. */
  function Lines(order: nat, menu: seq<MenuItem>, entries: seq<ItemEntry>): seq<OrderItem>
    requires EntriesValid(menu, entries)
  {
    seq(|entries|, i requires 0 <= i < |entries| => LineFor(order, menu, entries[i]))
  }

  /** The sum of menu price times quantity over the entries. */
  function EntriesTotal(menu: seq<MenuItem>, entries: seq<ItemEntry>): int
    requires EntriesValid(menu, entries)
    decreases |entries|
  {
    if entries == [] then 0
    else
      var last := entries[|entries| - 1];
      EntriesTotal(menu, entries[..|entries| - 1]) + menu[last.menuItem].price * last.quantity
  }

  /**
   * Appending the lines of a fresh order to the item table makes that order's
   * total the sum of its entries' menu prices times quantities.
   */
  lemma {:induction false} TotalOfNewOrder(items: seq<OrderItem>, order: nat, menu: seq<MenuItem>, entries: seq<ItemEntry>)
    requires EntriesValid(menu, entries)
    requires forall i :: 0 <= i < |items| ==> items[i].order != order
    ensures Total(items + Lines(order, menu, entries), order) == EntriesTotal(menu, entries)
    decreases |entries|
  {
    if entries == [] {
      assert items + Lines(order, menu, entries) == items;
      TotalOfUnreferenced(items, order);
    } else {
      var n := |entries| - 1;
      var prefix := entries[..n];
      assert Lines(order, menu, entries) == Lines(order, menu, prefix) + [LineFor(order, menu, entries[n])];
      assert items + Lines(order, menu, entries) == (items + Lines(order, menu, prefix)) + [LineFor(order, menu, entries[n])];
      TotalAppend(items + Lines(order, menu, prefix), LineFor(order, menu, entries[n]), order);
      TotalOfNewOrder(items, order, menu, prefix);
    }
  }

  /** The entry at `i` names a menu item that an earlier entry already named. */
  predicate RepeatsEarlier(entries: seq<ItemEntry>, i: nat)
    requires i < |entries|
  {
    exists j :: 0 <= j < i && entries[j].menuItem == entries[i].menuItem
  }

  /** No two entries name the same menu item. */
  predicate DistinctMenuItems(entries: seq<ItemEntry>) {
    forall i, j :: 0 <= i < j < |entries| ==> entries[i].menuItem != entries[j].menuItem
  }

  /**
   * The index of the first entry, from `i` on, whose menu item an earlier
   * entry already named; `|entries|` when there is none. Inserting that
   * entry's line is where the (order, menu item) constraint fails.
   */
  function FirstRepeatFrom(entries: seq<ItemEntry>, i: nat): (k: nat)
    requires i <= |entries|
    ensures i <= k <= |entries|
    ensures forall m :: i <= m < k ==> !RepeatsEarlier(entries, m)
    ensures k < |entries| ==> RepeatsEarlier(entries, k)
    decreases |entries| - i
  {
    if i == |entries| then i
    else if RepeatsEarlier(entries, i) then i
    else FirstRepeatFrom(entries, i + 1)
  }

  function FirstRepeat(entries: seq<ItemEntry>): (k: nat)
    ensures k <= |entries|
  {
    FirstRepeatFrom(entries, 0)
  }

  /** Every entry is inserted exactly when no two entries share a menu item. */
  lemma FirstRepeatIsEndIffDistinct(entries: seq<ItemEntry>)
    ensures FirstRepeat(entries) == |entries| <==> DistinctMenuItems(entries)
    ensures DistinctMenuItems(entries[..FirstRepeat(entries)])
  {
    var k := FirstRepeat(entries);
    forall i, j | 0 <= i < j < k
      ensures entries[..k][i].menuItem != entries[..k][j].menuItem
    {
      assert !RepeatsEarlier(entries, j);
    }
    if k < |entries| {
      assert RepeatsEarlier(entries, k);
      var j :| 0 <= j < k && entries[j].menuItem == entries[k].menuItem;
      assert !DistinctMenuItems(entries);
    } else {
      assert entries[..k] == entries;
    }
  }
}

=== FILE: views.dfy ===
/**
 * The read-only views: which bookings and orders a user may see, the
 * available-slots query, and the dashboard's counts and revenue sums.
 */
module Views {
  import opened Wrappers
  import opened Models

  // --------------------------------------------------------- visibility

  /** Staff see every record; anyone else sees only the records they own. */
  predicate CanSee(u: User, owner: UserId) {
    u.isStaff || owner == u.id
  }

  /** The ids, in increasing order, of the records visible to `u`, given each record's owner. */
  function VisibleIds(owners: seq<UserId>, u: User): (r: seq<nat>)
    ensures forall k :: 0 <= k < |r| ==> r[k] < |owners| && CanSee(u, owners[r[k]])
    ensures forall i :: 0 <= i < |owners| && CanSee(u, owners[i]) ==> i in r
    ensures forall k, l :: 0 <= k < l < |r| ==> r[k] < r[l]
    decreases |owners|
  {
    if owners == [] then []
    else
      var n := |owners| - 1;
      VisibleIds(owners[..n], u) + (if CanSee(u, owners[n]) then [n] else [])
  }

  /** A staff member sees every id, each once; a non-staff user sees exactly the ids they own. */
  lemma VisibilityByRole(owners: seq<UserId>, u: User)
    ensures u.isStaff ==> |VisibleIds(owners, u)| == |owners|
    ensures !u.isStaff ==> forall i :: i in VisibleIds(owners, u) <==> 0 <= i < |owners| && owners[i] == u.id
  {
    if u.isStaff {
      StaffSeesAll(owners, u);
    }
  }

  lemma {:induction false} StaffSeesAll(owners: seq<UserId>, u: User)
    requires u.isStaff
    ensures VisibleIds(owners, u) == seq(|owners|, i => i)
    decreases |owners|
  {
    if owners != [] {
      StaffSeesAll(owners[..|owners| - 1], u);
    }
  }

  /** The owner of each booking, by id. */
  function BookingOwners(bookings: seq<Booking>): (r: seq<UserId>)
    ensures |r| == |bookings| && forall i :: 0 <= i < |bookings| ==> r[i] == bookings[i].user
  {
    seq(|bookings|, i requires 0 <= i < |bookings| => bookings[i].user)
  }

  // ---------------------------------------------------- available slots

  /** A table can seat the party and is flagged available. */
  predicate Suitable(t: Table, guests: int) {
    t.capacity >= guests && t.isAvailable
  }

  /** The number of suitable tables among the first `n`. */
  function SuitableUpTo(tables: seq<Table>, guests: int, n: nat): nat
    requires n <= |tables|
  {
    if n == 0 then 0
    else SuitableUpTo(tables, guests, n - 1) + (if Suitable(tables[n - 1], guests) then 1 else 0)
  }

  function CountSuitable(tables: seq<Table>, guests: int): nat {
    SuitableUpTo(tables, guests, |tables|)
  }

  /** A pending or confirmed booking for that date and slot. */
  predicate ActiveAt(b: Booking, date: Date, slot: Slot) {
    b.date == date && b.slot == slot && b.status.IsActive()
  }

  /** The number of pending or confirmed bookings for a date and slot, on any table. */
  function CountActiveAt(bookings: seq<Booking>, date: Date, slot: Slot): nat
    decreases |bookings|
  {
    if bookings == [] then 0
    else
      var n := |bookings| - 1;
      CountActiveAt(bookings[..n], date, slot) + (if ActiveAt(bookings[n], date, slot) then 1 else 0)
  }

  /** The number of tables the query reports for a slot: suitable tables minus all active bookings of the slot. */
  function ReportedTables(tables: seq<Table>, bookings: seq<Booking>, date: Date, slot: Slot, guests: int): int {
    CountSuitable(tables, guests) - CountActiveAt(bookings, date, slot)
  }

  /** One entry of the query's result. */
  datatype SlotAvailability = SlotAvailability(slot: Slot, displayTime: string, availableTables: int)

  predicate IncreasingSlots(slots: seq<Slot>) {
    forall i, j :: 0 <= i < j < |slots| ==> SlotIndex(slots[i]) < SlotIndex(slots[j])
  }

  function SlotsOf(r: seq<SlotAvailability>): (s: seq<Slot>)
    ensures |s| == |r| && forall k :: 0 <= k < |r| ==> s[k] == r[k].slot
  {
    seq(|r|, k requires 0 <= k < |r| => r[k].slot)
  }

  /** The entries for `slots`, in their order, of the slots whose reported count is positive. */
  function Availability(tables: seq<Table>, bookings: seq<Booking>, date: Date, guests: int, slots: seq<Slot>): seq<SlotAvailability>
    decreases |slots|
  {
    if slots == [] then []
    else
      var n := |slots| - 1;
      var count := ReportedTables(tables, bookings, date, slots[n], guests);
      Availability(tables, bookings, date, guests, slots[..n])
      + (if count > 0 then [SlotAvailability(slots[n], DisplayTime(slots[n]), count)] else [])
  }

  /** Every listed slot comes from `slots` and is listed with its positive reported count. */
  lemma {:induction false} AvailabilityListsReported(tables: seq<Table>, bookings: seq<Booking>, date: Date, guests: int, slots: seq<Slot>)
    ensures forall e :: e in Availability(tables, bookings, date, guests, slots) ==>
      && e.slot in slots
      && e.availableTables == ReportedTables(tables, bookings, date, e.slot, guests) > 0
      && e.displayTime == DisplayTime(e.slot)
    decreases |slots|
  {
    if slots != [] {
      var n := |slots| - 1;
      var s := slots[n];
      var count := ReportedTables(tables, bookings, date, s, guests);
      AvailabilityListsReported(tables, bookings, date, guests, slots[..n]);
      var prefix := Availability(tables, bookings, date, guests, slots[..n]);
      var last := if count > 0 then [SlotAvailability(s, DisplayTime(s), count)] else [];
      assert Availability(tables, bookings, date, guests, slots) == prefix + last;
      assert forall x :: x in slots[..n] ==> x in slots;
    }
  }

  /** Every slot of `slots` whose reported count is positive is listed. */
  lemma {:induction false} AvailabilityListsEveryReported(tables: seq<Table>, bookings: seq<Booking>, date: Date, guests: int, slots: seq<Slot>)
    ensures forall s :: s in slots && ReportedTables(tables, bookings, date, s, guests) > 0 ==>
      s in SlotsOf(Availability(tables, bookings, date, guests, slots))
    decreases |slots|
  {
    if slots != [] {
      var n := |slots| - 1;
      var s := slots[n];
      var count := ReportedTables(tables, bookings, date, s, guests);
      var prefix := Availability(tables, bookings, date, guests, slots[..n]);
      var last := if count > 0 then [SlotAvailability(s, DisplayTime(s), count)] else [];
      AvailabilityListsEveryReported(tables, bookings, date, guests, slots[..n]);
      var r := Availability(tables, bookings, date, guests, slots);
      assert r == prefix + last;
      assert SlotsOf(r) == SlotsOf(prefix) + SlotsOf(last);
      forall x | x in slots && ReportedTables(tables, bookings, date, x, guests) > 0
        ensures x in SlotsOf(r)
      {
        var j :| 0 <= j < |slots| && slots[j] == x;
        if j < n {
          assert slots[..n][j] == x;
          assert x in SlotsOf(prefix);
        } else {
          assert SlotsOf(last) == [s];
        }
      }
    }
  }

  /** Listed slots keep the order of `slots`. */
  lemma {:induction false} AvailabilityKeepsOrder(tables: seq<Table>, bookings: seq<Booking>, date: Date, guests: int, slots: seq<Slot>)
    requires IncreasingSlots(slots)
    ensures IncreasingSlots(SlotsOf(Availability(tables, bookings, date, guests, slots)))
    decreases |slots|
  {
    if slots != [] {
      var n := |slots| - 1;
      var s := slots[n];
      var count := ReportedTables(tables, bookings, date, s, guests);
      var prefix := Availability(tables, bookings, date, guests, slots[..n]);
      var last := if count > 0 then [SlotAvailability(s, DisplayTime(s), count)] else [];
      assert IncreasingSlots(slots[..n]);
      AvailabilityKeepsOrder(tables, bookings, date, guests, slots[..n]);
      AvailabilityListsReported(tables, bookings, date, guests, slots[..n]);
      forall k | 0 <= k < |prefix|
        ensures SlotIndex(prefix[k].slot) < SlotIndex(s)
      {
        var j :| 0 <= j < n && slots[..n][j] == prefix[k].slot;
        assert slots[j] == prefix[k].slot;
      }
      var r := Availability(tables, bookings, date, guests, slots);
      assert r == prefix + last;
      assert SlotsOf(r) == SlotsOf(prefix) + SlotsOf(last);
    }
  }

  /** The number of guests assumed when the query gives none. */
  const DefaultGuests: int := 2

  /** The available-slots query: a date is required; the party size defaults to two. */
  function AvailableSlots(tables: seq<Table>, bookings: seq<Booking>, date: Option<Date>, guests: Option<int>): (r: Result<seq<SlotAvailability>, Error>)
    ensures date.None? <==> r == Err(MissingDate)
  {
    if date.None? then Err(MissingDate)
    else
      var g := if guests.Some? then guests.value else DefaultGuests;
      Ok(Availability(tables, bookings, date.value, g, AllSlots))
  }

  /** The query's result lists slots in their declared order. */
  lemma AvailableSlotsInOrder(tables: seq<Table>, bookings: seq<Booking>, date: Option<Date>, guests: Option<int>)
    requires date.Some?
    ensures AvailableSlots(tables, bookings, date, guests).Ok?
    ensures IncreasingSlots(SlotsOf(AvailableSlots(tables, bookings, date, guests).value))
  {
    AllSlotsIncreasing();
    var g := if guests.Some? then guests.value else DefaultGuests;
    AvailabilityKeepsOrder(tables, bookings, date.value, g, AllSlots);
  }

  lemma AllSlotsIncreasing()
    ensures IncreasingSlots(AllSlots)
  {
    forall i, j | 0 <= i < j < |AllSlots|
      ensures SlotIndex(AllSlots[i]) < SlotIndex(AllSlots[j])
    {
      assert SlotIndex(AllSlots[i]) == i && SlotIndex(AllSlots[j]) == j;
    }
  }

  /** The query, slot by slot, appending each slot whose reported count is positive. */
  method QueryAvailableSlots(tables: seq<Table>, bookings: seq<Booking>, date: Option<Date>, guests: Option<int>)
    returns (r: Result<seq<SlotAvailability>, Error>)
    ensures r == AvailableSlots(tables, bookings, date, guests)
  {
    if date.None? {
      return Err(MissingDate);
    }
    var g := if guests.Some? then guests.value else DefaultGuests;
    var suitable: int := CountSuitable(tables, g);
    var found: seq<SlotAvailability> := [];
    var i := 0;
    while i < |AllSlots|
      invariant 0 <= i <= |AllSlots|
      invariant found == Availability(tables, bookings, date.value, g, AllSlots[..i])
    {
      var slot := AllSlots[i];
      var booked: int := CountActiveAt(bookings, date.value, slot);
      var available: int := suitable - booked;
      if available > 0 {
        found := found + [SlotAvailability(slot, DisplayTime(slot), available)];
      }
      AvailabilityExtend(tables, bookings, date.value, g, AllSlots, i);
      i := i + 1;
    }
    assert AllSlots[..i] == AllSlots;
    r := Ok(found);
  }

  /** Extending the slot list by one slot appends that slot's entry, if any. */
  lemma AvailabilityExtend(tables: seq<Table>, bookings: seq<Booking>, date: Date, guests: int, slots: seq<Slot>, i: nat)
    requires i < |slots|
    ensures
      var count := ReportedTables(tables, bookings, date, slots[i], guests);
      Availability(tables, bookings, date, guests, slots[..i + 1])
      == Availability(tables, bookings, date, guests, slots[..i])
         + (if count > 0 then [SlotAvailability(slots[i], DisplayTime(slots[i]), count)] else [])
  {
    assert slots[..i + 1][..i] == slots[..i];
  }

  // ------------------- what the query was evidently meant to subtract

  /** Some pending or confirmed booking holds table `t` for that date and slot. */
  predicate TableBookedAt(bookings: seq<Booking>, t: nat, date: Date, slot: Slot) {
    exists i :: 0 <= i < |bookings| && bookings[i].table == t && ActiveAt(bookings[i], date, slot)
  }

  /** The number of suitable tables among the first `n` that nothing holds for that date and slot. */
  function FreeTablesUpTo(tables: seq<Table>, bookings: seq<Booking>, date: Date, slot: Slot, guests: int, n: nat): nat
    requires n <= |tables|
  {
    if n == 0 then 0
    else
      FreeTablesUpTo(tables, bookings, date, slot, guests, n - 1)
      + (if Suitable(tables[n - 1], guests) && !TableBookedAt(bookings, n - 1, date, slot) then 1 else 0)
  }

  /** The number of suitable tables that are actually free for that date and slot. */
  function FreeTables(tables: seq<Table>, bookings: seq<Booking>, date: Date, slot: Slot, guests: int): nat {
    FreeTablesUpTo(tables, bookings, date, slot, guests, |tables|)
  }

  /** A booking that is active at the slot and holds a suitable table. */
  predicate HoldsSuitableAt(tables: seq<Table>, b: Booking, date: Date, slot: Slot, guests: int) {
    ActiveAt(b, date, slot) && b.table < |tables| && Suitable(tables[b.table], guests)
  }

  /** The number of active bookings of the slot that hold a suitable table. */
  function CountActiveOnSuitable(tables: seq<Table>, bookings: seq<Booking>, date: Date, slot: Slot, guests: int): nat
    decreases |bookings|
  {
    if bookings == [] then 0
    else
      var n := |bookings| - 1;
      CountActiveOnSuitable(tables, bookings[..n], date, slot, guests)
      + (if HoldsSuitableAt(tables, bookings[n], date, slot, guests) then 1 else 0)
  }

  /** The corrected count: suitable tables minus the active bookings of the slot on suitable tables. */
  function CorrectedTables(tables: seq<Table>, bookings: seq<Booking>, date: Date, slot: Slot, guests: int): int {
    CountSuitable(tables, guests) - CountActiveOnSuitable(tables, bookings, date, slot, guests)
  }

  /** The number of active bookings of table `t` for that date and slot. */
  function BookingsOfTable(bookings: seq<Booking>, t: nat, date: Date, slot: Slot): nat
    decreases |bookings|
  {
    if bookings == [] then 0
    else
      var n := |bookings| - 1;
      BookingsOfTable(bookings[..n], t, date, slot)
      + (if bookings[n].table == t && ActiveAt(bookings[n], date, slot) then 1 else 0)
  }

  /** The active bookings of the slot held by the suitable tables among the first `n`. */
  function BookedSuitableUpTo(tables: seq<Table>, bookings: seq<Booking>, date: Date, slot: Slot, guests: int, n: nat): nat
    requires n <= |tables|
  {
    if n == 0 then 0
    else
      BookedSuitableUpTo(tables, bookings, date, slot, guests, n - 1)
      + (if Suitable(tables[n - 1], guests) then BookingsOfTable(bookings, n - 1, date, slot) else 0)
  }

  lemma {:induction false} BookedSuitableUpToAppend(tables: seq<Table>, bookings: seq<Booking>, b: Booking, date: Date, slot: Slot, guests: int, n: nat)
    requires n <= |tables|
    ensures BookedSuitableUpTo(tables, bookings + [b], date, slot, guests, n)
      == BookedSuitableUpTo(tables, bookings, date, slot, guests, n)
         + (if b.table < n && HoldsSuitableAt(tables, b, date, slot, guests) then 1 else 0)
  {
    assert (bookings + [b])[..|bookings|] == bookings;
    if n > 0 {
      BookedSuitableUpToAppend(tables, bookings, b, date, slot, guests, n - 1);
    }
  }

  lemma {:induction false} NothingBookedUpTo(tables: seq<Table>, date: Date, slot: Slot, guests: int, n: nat)
    requires n <= |tables|
    ensures BookedSuitableUpTo(tables, [], date, slot, guests, n) == 0
  {
    if n > 0 {
      NothingBookedUpTo(tables, date, slot, guests, n - 1);
    }
  }

  /** Counting bookings on suitable tables equals summing, over suitable tables, each table's bookings. */
  lemma {:induction false} ActiveOnSuitableByTable(tables: seq<Table>, bookings: seq<Booking>, date: Date, slot: Slot, guests: int)
    ensures CountActiveOnSuitable(tables, bookings, date, slot, guests)
      == BookedSuitableUpTo(tables, bookings, date, slot, guests, |tables|)
    decreases |bookings|
  {
    if bookings == [] {
      NothingBookedUpTo(tables, date, slot, guests, |tables|);
    } else {
      var n := |bookings| - 1;
      var b := bookings[n];
      assert bookings == bookings[..n] + [b];
      ActiveOnSuitableByTable(tables, bookings[..n], date, slot, guests);
      BookedSuitableUpToAppend(tables, bookings[..n], b, date, slot, guests, |tables|);
      assert CountActiveOnSuitable(tables, bookings, date, slot, guests)
        == CountActiveOnSuitable(tables, bookings[..n], date, slot, guests)
           + (if HoldsSuitableAt(tables, b, date, slot, guests) then 1 else 0);
    }
  }

  /** Under the uniqueness constraint each table has at most one active booking per slot, and one exactly when it is booked. */
  lemma {:induction false} BookingsOfTableIsIndicator(bookings: seq<Booking>, t: nat, date: Date, slot: Slot)
    requires UniqueKeys(bookings)
    ensures BookingsOfTable(bookings, t, date, slot) == if TableBookedAt(bookings, t, date, slot) then 1 else 0
    decreases |bookings|
  {
    if bookings != [] {
      var n := |bookings| - 1;
      var prefix := bookings[..n];
      assert UniqueKeys(prefix) by {
        forall i, j | 0 <= i < j < |prefix|
          ensures KeyOf(prefix[i]) != KeyOf(prefix[j])
        {
          assert prefix[i] == bookings[i] && prefix[j] == bookings[j];
        }
      }
      BookingsOfTableIsIndicator(prefix, t, date, slot);
      if bookings[n].table == t && ActiveAt(bookings[n], date, slot) {
        assert !TableBookedAt(prefix, t, date, slot);
      } else {
        if TableBookedAt(bookings, t, date, slot) {
          var i :| 0 <= i < |bookings| && bookings[i].table == t && ActiveAt(bookings[i], date, slot);
          assert i < n && prefix[i] == bookings[i];
        }
      }
    }
  }

  lemma {:induction false} CorrectedUpTo(tables: seq<Table>, bookings: seq<Booking>, date: Date, slot: Slot, guests: int, n: nat)
    requires n <= |tables|
    requires UniqueKeys(bookings)
    ensures SuitableUpTo(tables, guests, n) - BookedSuitableUpTo(tables, bookings, date, slot, guests, n)
      == FreeTablesUpTo(tables, bookings, date, slot, guests, n)
  {
    if n > 0 {
      CorrectedUpTo(tables, bookings, date, slot, guests, n - 1);
      BookingsOfTableIsIndicator(bookings, n - 1, date, slot);
    }
  }

  /**
   * Subtracting only the bookings on suitable tables makes the reported count
   * exactly the number of suitable tables that are free for the slot.
   */
  lemma CorrectedCountsFreeTables(tables: seq<Table>, bookings: seq<Booking>, date: Date, slot: Slot, guests: int)
    requires UniqueKeys(bookings)
    ensures CorrectedTables(tables, bookings, date, slot, guests) == FreeTables(tables, bookings, date, slot, guests)
  {
    ActiveOnSuitableByTable(tables, bookings, date, slot, guests);
    CorrectedUpTo(tables, bookings, date, slot, guests, |tables|);
  }

  lemma {:induction false} ActiveOnSuitableAtMostActive(tables: seq<Table>, bookings: seq<Booking>, date: Date, slot: Slot, guests: int)
    ensures CountActiveOnSuitable(tables, bookings, date, slot, guests) <= CountActiveAt(bookings, date, slot)
    decreases |bookings|
  {
    if bookings != [] {
      ActiveOnSuitableAtMostActive(tables, bookings[..|bookings| - 1], date, slot, guests);
    }
  }

  /** The query as written never overstates: a slot it reports has at least that many free suitable tables. */
  lemma ReportedNeverOverstates(tables: seq<Table>, bookings: seq<Booking>, date: Date, slot: Slot, guests: int)
    requires UniqueKeys(bookings)
    ensures ReportedTables(tables, bookings, date, slot, guests) <= FreeTables(tables, bookings, date, slot, guests)
  {
    ActiveOnSuitableAtMostActive(tables, bookings, date, slot, guests);
    CorrectedCountsFreeTables(tables, bookings, date, slot, guests);
  }

  /**
   * As written, a booking of a small table hides a free large one: with a
   * two-seat and an eight-seat table and one pending booking of the two-seat
   * table at 19:00, a party of six is offered no table at 19:00 although the
   * eight-seat table is free.
   */
  lemma ReportedHidesFreeTable()
    ensures
      var tables := [Table(1, 2, "Window", true), Table(8, 8, "Private", true)];
      var bookings := [Booking(1, 0, 0, At1900, 2, Contact("Ann", "a@b.co", "555", ""), BookingStatus.Pending)];
      && UniqueKeys(bookings)
      && ReportedTables(tables, bookings, 0, At1900, 6) == 0
      && FreeTables(tables, bookings, 0, At1900, 6) == 1
      && At1900 !in SlotsOf(Availability(tables, bookings, 0, 6, AllSlots))
  {
    var tables := [Table(1, 2, "Window", true), Table(8, 8, "Private", true)];
    var bookings := [Booking(1, 0, 0, At1900, 2, Contact("Ann", "a@b.co", "555", ""), BookingStatus.Pending)];
    AvailabilityListsReported(tables, bookings, 0, 6, AllSlots);
    assert CountSuitable(tables, 6) == 1 by {
      assert SuitableUpTo(tables, 6, 1) == 0;
    }
    assert CountActiveAt(bookings, 0, At1900) == 1 by {
      assert bookings[..0] == [];
    }
    assert !TableBookedAt(bookings, 1, 0, At1900);
    assert FreeTablesUpTo(tables, bookings, 0, At1900, 6, 1) == 0;
  }

  // ---------------------------------------------------------- dashboard

  /** The number of elements of `s` that satisfy `p`. */
  function Count<T>(s: seq<T>, p: T -> bool): (n: nat)
    ensures n <= |s|
    decreases |s|
  {
    if s == [] then 0
    else Count(s[..|s| - 1], p) + (if p(s[|s| - 1]) then 1 else 0)
  }

  /** The sum of `total` over the orders, whatever their status. */
  function Revenue(orders: seq<Order>): int
    decreases |orders|
  {
    if orders == [] then 0 else Revenue(orders[..|orders| - 1]) + orders[|orders| - 1].total
  }

  /** The orders created on `day`. */
  function CreatedOn(orders: seq<Order>, day: Date): (r: seq<Order>)
    ensures |r| <= |orders|
    ensures forall k :: 0 <= k < |r| ==> r[k] in orders && r[k].createdOn == day
    decreases |orders|
  {
    if orders == [] then []
    else
      var n := |orders| - 1;
      CreatedOn(orders[..n], day) + (if orders[n].createdOn == day then [orders[n]] else [])
  }

  datatype Stats = Stats(
    totalBookings: nat, todayBookings: nat, pendingBookings: nat,
    totalOrders: nat, todayOrders: nat, pendingOrders: nat,
    totalRevenue: int, todayRevenue: int)

  /** A booking dated `day`. */
  function BookedOn(day: Date): Booking -> bool {
    (b: Booking) => b.date == day
  }

  predicate IsPendingBooking(b: Booking) {
    b.status == BookingStatus.Pending
  }

  predicate IsPendingOrder(o: Order) {
    o.status == OrderStatus.Pending
  }

  /**
   * The dashboard snapshot for `today`, shown to staff only: anyone else is
   * refused before anything is counted.
   */
  function DashboardStats(u: User, bookings: seq<Booking>, orders: seq<Order>, today: Date): (r: Result<Stats, Error>)
    ensures r.Err? <==> !u.isStaff
    ensures r.Err? ==> r.error == Forbidden
    ensures r.Ok? ==>
      && r.value.todayBookings <= r.value.totalBookings == |bookings|
      && r.value.pendingBookings <= r.value.totalBookings
      && r.value.todayOrders <= r.value.totalOrders == |orders|
      && r.value.pendingOrders <= r.value.totalOrders
  {
    if !u.isStaff then Err(Forbidden)
    else
      var todays := CreatedOn(orders, today);
      Ok(Stats(
        |bookings|,
        Count(bookings, BookedOn(today)),
        Count(bookings, IsPendingBooking),
        |orders|,
        |todays|,
        Count(orders, IsPendingOrder),
        Revenue(orders),
        Revenue(todays)))
  }

  /** Appending an element adds one to the count exactly when it satisfies `p`. */
  lemma {:induction false} CountAppend<T>(s: seq<T>, p: T -> bool, x: T)
    ensures Count(s + [x], p) == Count(s, p) + (if p(x) then 1 else 0)
  {
    assert (s + [x])[..|s|] == s;
  }

  /** Replacing an element moves the count by what `p` says of the old and the new element. */
  lemma {:induction false} CountUpdate<T>(s: seq<T>, p: T -> bool, k: nat, x: T)
    requires k < |s|
    ensures Count(s[k := x], p) == Count(s, p) - (if p(s[k]) then 1 else 0) + (if p(x) then 1 else 0)
    decreases |s|
  {
    var n := |s| - 1;
    if k < n {
      assert s[k := x][..n] == s[..n][k := x];
      CountUpdate(s[..n], p, k, x);
    } else {
      assert s[k := x][..n] == s[..n];
    }
  }

  /**
   * A new booking adds one to the booking total, one to today's bookings
   * exactly when it is dated today, and one to the pending bookings exactly
   * when it is pending; the order figures are untouched.
   */
  lemma DashboardAfterNewBooking(u: User, bookings: seq<Booking>, orders: seq<Order>, today: Date, b: Booking)
    requires u.isStaff
    ensures
      var before := DashboardStats(u, bookings, orders, today).value;
      var after := DashboardStats(u, bookings + [b], orders, today).value;
      && after.totalBookings == before.totalBookings + 1
      && after.todayBookings == before.todayBookings + (if b.date == today then 1 else 0)
      && after.pendingBookings == before.pendingBookings + (if b.status == BookingStatus.Pending then 1 else 0)
      && after.(totalBookings := 0, todayBookings := 0, pendingBookings := 0)
         == before.(totalBookings := 0, todayBookings := 0, pendingBookings := 0)
  {
    CountAppend(bookings, BookedOn(today), b);
    CountAppend(bookings, IsPendingBooking, b);
  }

  /**
   * Changing one booking's status (a cancel, or a save that completes it)
   * lowers the pending bookings by one exactly when it was pending and is no
   * longer; every other figure stays.
   */
  lemma DashboardAfterBookingStatus(u: User, bookings: seq<Booking>, orders: seq<Order>, today: Date, k: nat, s: BookingStatus)
    requires u.isStaff && k < |bookings|
    ensures
      var before := DashboardStats(u, bookings, orders, today).value;
      var after := DashboardStats(u, bookings[k := bookings[k].(status := s)], orders, today).value;
      && after.pendingBookings
         == before.pendingBookings
            - (if bookings[k].status == BookingStatus.Pending then 1 else 0)
            + (if s == BookingStatus.Pending then 1 else 0)
      && after.(pendingBookings := 0) == before.(pendingBookings := 0)
  {
    CountUpdate(bookings, BookedOn(today), k, bookings[k].(status := s));
    CountUpdate(bookings, IsPendingBooking, k, bookings[k].(status := s));
  }

  /**
   * Moving one order to another status lowers the pending orders by one
   * exactly when it was pending and is no longer, raises them by one in the
   * reverse case, and leaves revenue and every other figure alone.
   */
  lemma DashboardAfterOrderStatus(u: User, bookings: seq<Booking>, orders: seq<Order>, today: Date, k: nat, s: OrderStatus)
    requires u.isStaff && k < |orders|
    ensures
      var before := DashboardStats(u, bookings, orders, today).value;
      var after := DashboardStats(u, bookings, orders[k := orders[k].(status := s)], today).value;
      && after.pendingOrders
         == before.pendingOrders
            - (if orders[k].status == OrderStatus.Pending then 1 else 0)
            + (if s == OrderStatus.Pending then 1 else 0)
      && after.totalRevenue == before.totalRevenue
      && after.totalOrders == before.totalOrders
  {
    CountUpdate(orders, IsPendingOrder, k, orders[k].(status := s));
    RevenueIgnoresStatus(orders, k, s);
  }

  /** The orders not created on `day`. */
  function CreatedOtherDays(orders: seq<Order>, day: Date): (r: seq<Order>)
    ensures |r| <= |orders|
    ensures forall k :: 0 <= k < |r| ==> r[k] in orders && r[k].createdOn != day
    decreases |orders|
  {
    if orders == [] then []
    else
      var n := |orders| - 1;
      CreatedOtherDays(orders[..n], day) + (if orders[n].createdOn != day then [orders[n]] else [])
  }

  lemma {:induction false} RevenueAppend(orders: seq<Order>, o: Order)
    ensures Revenue(orders + [o]) == Revenue(orders) + o.total
  {
    assert (orders + [o])[..|orders|] == orders;
  }

  /** The day's order count is the number of orders whose creation date is that day. */
  lemma {:induction false} TodayOrdersCounted(orders: seq<Order>, day: Date)
    ensures |CreatedOn(orders, day)| == Count(orders, (o: Order) => o.createdOn == day)
    decreases |orders|
  {
    if orders != [] {
      TodayOrdersCounted(orders[..|orders| - 1], day);
    }
  }

  /** Total revenue is the day's revenue plus the revenue of the orders created on other days. */
  lemma {:induction false} RevenueSplitsByDay(orders: seq<Order>, day: Date)
    ensures Revenue(orders) == Revenue(CreatedOn(orders, day)) + Revenue(CreatedOtherDays(orders, day))
    decreases |orders|
  {
    if orders != [] {
      var n := |orders| - 1;
      RevenueSplitsByDay(orders[..n], day);
      if orders[n].createdOn == day {
        assert CreatedOn(orders, day) == CreatedOn(orders[..n], day) + [orders[n]];
        RevenueAppend(CreatedOn(orders[..n], day), orders[n]);
        assert CreatedOtherDays(orders, day) == CreatedOtherDays(orders[..n], day);
      } else {
        assert CreatedOtherDays(orders, day) == CreatedOtherDays(orders[..n], day) + [orders[n]];
        RevenueAppend(CreatedOtherDays(orders[..n], day), orders[n]);
        assert CreatedOn(orders, day) == CreatedOn(orders[..n], day);
      }
    }
  }

  /** Changing an order's status never changes revenue. */
  lemma {:induction false} RevenueIgnoresStatus(orders: seq<Order>, k: nat, s: OrderStatus)
    requires k < |orders|
    ensures Revenue(orders[k := orders[k].(status := s)]) == Revenue(orders)
    decreases |orders|
  {
    var n := |orders| - 1;
    var updated := orders[k := orders[k].(status := s)];
    if k < n {
      assert updated[..n] == orders[..n][k := orders[k].(status := s)];
      RevenueIgnoresStatus(orders[..n], k, s);
    } else {
      assert updated[..n] == orders[..n];
    }
  }

  /** The sum of `price` over all lines. */
  function LinesRevenue(items: seq<OrderItem>): int
    decreases |items|
  {
    if items == [] then 0 else LinesRevenue(items[..|items| - 1]) + items[|items| - 1].price
  }

  /** The sum of the line totals of orders 0..n-1. */
  function TotalsUpTo(items: seq<OrderItem>, n: nat): int {
    if n == 0 then 0 else TotalsUpTo(items, n - 1) + Total(items, n - 1)
  }

  lemma {:induction false} TotalsUpToAppend(items: seq<OrderItem>, x: OrderItem, n: nat)
    ensures TotalsUpTo(items + [x], n) == TotalsUpTo(items, n) + (if x.order < n then x.price else 0)
  {
    if n > 0 {
      TotalsUpToAppend(items, x, n - 1);
      TotalAppend(items, x, n - 1);
    }
  }

  lemma {:induction false} TotalsUpToAllLines(items: seq<OrderItem>, n: nat)
    requires forall i :: 0 <= i < |items| ==> items[i].order < n
    ensures TotalsUpTo(items, n) == LinesRevenue(items)
    decreases |items|
  {
    if items == [] {
      TotalsUpToOfNothing(n);
    } else {
      var m := |items| - 1;
      assert items == items[..m] + [items[m]];
      TotalsUpToAllLines(items[..m], n);
      TotalsUpToAppend(items[..m], items[m], n);
    }
  }

  lemma {:induction false} TotalsUpToOfNothing(n: nat)
    ensures TotalsUpTo([], n) == 0
  {
    if n > 0 {
      TotalsUpToOfNothing(n - 1);
    }
  }

  lemma {:induction false} RevenueIsTotalsUpTo(orders: seq<Order>, items: seq<OrderItem>)
    requires TotalsConsistent(orders, items)
    ensures Revenue(orders) == TotalsUpTo(items, |orders|)
    decreases |orders|
  {
    if orders != [] {
      var n := |orders| - 1;
      assert TotalsConsistent(orders[..n], items) by {
        forall o | 0 <= o < n
          ensures orders[..n][o].total == Total(items, o)
        {
          assert orders[..n][o] == orders[o];
        }
      }
      RevenueIsTotalsUpTo(orders[..n], items);
    }
  }

  /** When every order's total is the sum of its lines, revenue is the sum of all line prices. */
  lemma RevenueIsSumOfLines(menu: seq<MenuItem>, bookingCount: nat, orders: seq<Order>, items: seq<OrderItem>)
    requires LedgerValid(menu, bookingCount, orders, items)
    ensures Revenue(orders) == LinesRevenue(items)
  {
    RevenueIsTotalsUpTo(orders, items);
    TotalsUpToAllLines(items, |orders|);
  }
}

=== FILE: wrappers.dfy ===
/** The optional-value and outcome types shared by the whole model. */
module Wrappers {

  datatype Option<+T> = None | Some(value: T)

  /** The outcome of an operation that produces a value or reports an error. */
  datatype Result<+T, +E> = Ok(value: T) | Err(error: E)

  /** The outcome of a check that either passes or reports an error. */
  datatype Outcome<+E> = Pass | Fail(error: E)
}
